=== FILE: README.md ===
# Contact-Us System — a Dafny model of its form, list and status logic

The system takes contact inquiries through a web form and lets staff browse
the stored contacts and triage them by a serving status. This project models
its pure decision logic:

- **The contact form** (`ContactForm.js`): the seven-field draft, the six
  independent validation rules (trimmed emptiness, the e-mail pattern
  `\S+@\S+\.\S+`, and `other_service` only for the `other` service), the edit
  handler that clears a field's error, and the submit handler that blocks on
  errors, resets the draft on success and keeps it on failure.
- **The contact list** (`ContactList.js`): the optimistic status patch after
  a successful update, the fetch state transition, and the status option
  lists and badge classes.
- **The data model** (`contacts/models.py`): the status and service
  enumerations, the `initial` default, the column bounds, `get_status_color`,
  `__str__`, and the newest-first ordering.
- **The REST views** (`api/views.py`) and **the page views**
  (`contacts/views.py`): the status filter, the status update with its error
  outcomes, and record creation.

JavaScript's `trim()` and the regular-expression class `\S` share one
whitespace predicate, `Text.IsWS` (ECMAScript WhiteSpace and LineTerminator).
The server cleans submitted text with Python's `str.strip()`, whose
whitespace set (`Text.IsPySpace`) differs from the browser's; one pair of
trimming functions, parameterised by the set, serves both.
The regular expression is given two readings that are proved equivalent: the
literal one (`EmailPattern.RegexMatchAt`: three non-whitespace runs around
`@` and `.`) and a two-position one (`EmailPattern.EmailAt`). A scanning
method decides the second.

The stored table is the sequence `Contact.objects.all()` returns. Its
well-formedness (`ContactModel.StoreOk`) is: newest first, unique primary
keys, and only declared status keys. The database's guarantees enter as
preconditions: unique keys for the update views, and a fresh key for
creation. Everything the code calls but does not define is a parameter:

- the outcome of each HTTP request;
- the serializer's or ModelForm's verdict;
- the new key and the creation time;
- whether the e-mail was sent.

The backend is part of the repository and is modelled. Two points:

- The page view `contacts/views.py` `update_status` looks the record up
  without a guard, so an unknown id ends in an exception (`DoesNotExist`).
  The REST view answers 404 for the same request.
- The page view `contact` saves the record and then sends the e-mail with no
  handler around it. A failed e-mail therefore ends the request in a server
  error after the record is saved. The REST view catches the failure and
  answers 201.

A failed status update on the client is only logged, and the list is left
as it was.

## Model

| member | source | states |
|---|---|---|
| Text.BlankIffAllWS | frontend/src/components/ContactForm.js:49-73 | `!x.trim()` holds exactly when every character of x is whitespace, the reading every "required" rule uses |
| Text.TrimStart | frontend/src/components/ContactForm.js:49 | leading-whitespace removal, for the browser's or Python's whitespace set, returns a suffix, cuts only whitespace, and leaves a non-whitespace first character or nothing |
| Text.TrimEnd | frontend/src/components/ContactForm.js:49 | trailing-whitespace removal, for either whitespace set, returns a prefix, cuts only whitespace, and leaves a non-whitespace last character or nothing |
| Text.Strip | api/serializers.py:4-8 | the server-side `strip()` of submitted text is the middle slice of the input with only Python whitespace cut from either end, none left at its own ends, and non-empty whenever the input has a non-whitespace character |
| Text.StripIsUnique | api/serializers.py:4-8 | any slice of the input whose cut-off margins are Python whitespace and whose own ends are not is exactly the stripped string, so `Strip`'s contract pins `str.strip()` |
| Text.TrimAndStripDisagree | frontend/src/components/ContactForm.js:49-73 | the browser and the server disagree on blankness: U+001C passes the form's `trim()` test but strips to "" on the server, and U+FEFF the other way round |
| EmailPattern.RegexMatchesIffLooksLikeEmail | frontend/src/components/ContactForm.js:59 | the unanchored pattern `\S+@\S+\.\S+` matches somewhere iff there is an `@` at p and a `.` at q > p+1 with s[p-1], s[p+1..q) and s[q+1] all non-whitespace |
| EmailPattern.MatchEmail | frontend/src/components/ContactForm.js:59 | a single scan over the `@` positions returns true exactly when the pattern matches |
| EmailPattern.AllWSIsNotEmail | frontend/src/components/ContactForm.js:57-61 | a whitespace-only address never matches, so "required" and "invalid" cannot both apply |
| EmailPattern.NoAtSignNoEmail | frontend/src/components/ContactForm.js:59 | an address without `@` never matches |
| Choices.ChoicesMatchEnumerations | contacts/models.py:5-20 | STATUS_CHOICES has five and SERVICE_CHOICES six entries, pairwise equal to the enumerations, with distinct keys |
| Choices.ParseStatus | contacts/models.py:5-11 | status lookup is defined exactly on the five keys and inverts `Status.Key` |
| Choices.ParseService | contacts/models.py:13-20 | service lookup is defined exactly on the six keys and inverts `Service.Key` |
| Choices.KeyRoundTrips | contacts/models.py:5-20 | every status and every service reads back from its key |
| Choices.KeysFitColumns | contacts/models.py:24-33 | every status key fits the 20-character status column and every service key the 50-character service column; the default `initial` is a key |
| Choices.StatusColor | contacts/models.py:36-44 | the colour is total: a status key gets its listed class, any other string gets the class of `initial` |
| Choices.ColorTableKeyedByStatuses | contacts/models.py:37-43 | the colour table has exactly the five status keys |
| Choices.WithoutBlank | frontend/src/components/ContactList.js:131 | filtering out the "" option keeps exactly the options with a non-empty value, and only those |
| Choices.WithoutBlankKeepsOrder | frontend/src/components/ContactList.js:131 | the option filter is an order-preserving selection: it returns the options at exactly the positions whose value is not "", in their original order, each once |
| ContactModel.NewContact | contacts/models.py:29-34 | a created record carries the assigned id, the creation time, status `initial` and the submitted fields unchanged |
| ContactModel.FieldsWithinModel | contacts/models.py:22-28 | the column constraints: both names within 50 characters, the e-mail within `EmailField`'s default 254, a service key within 50, `other_service` within 100 and the phone number within 20 when present, and a description; all required columns non-empty |
| ContactModel.OtherServiceNotRequired | contacts/models.py:25-27 | the model accepts service `other` with a null or blank `other_service` and phone number |
| ContactModel.Str | contacts/models.py:46-47 | the string form is the first name, one space, the last name, `" - "`, and the service, in that order and with nothing else |
| ContactModel.Insert | contacts/models.py:50 | placing a record into the ordering adds exactly that record: the result is a permutation of the old table plus it |
| ContactModel.InsertNewestFirst | contacts/models.py:50 | placing a record keeps the table ordered by creation time, newest first |
| ContactModel.InsertSplits | contacts/models.py:50 | the new record is spliced in at one position, with the old records in their old order around it |
| ContactModel.FindById | api/views.py:56-59 | the lookup by id returns a position holding that id, and fails exactly when no record has the id |
| ContactModel.FindByIdUnique | api/views.py:57 | with unique keys, the lookup finds the one record with that id |
| ContactModel.WithStatus | api/views.py:18-19 | the status filter returns only records of the table with that status, and every such record |
| ContactModel.WithStatusKeepsOrder | api/views.py:18-19 | the status filter is an order-preserving selection: it returns the records at exactly the positions whose status matches, in table order, each once |
| ContactModel.WithStatusNewestFirst | api/views.py:15-19 | the status filter keeps the newest-first order |
| ContactModel.WithStatusNoneMatching | api/views.py:18-19 | a status no record has selects the empty list, not an error |
| ContactModel.FilterByStatus | api/views.py:14-19 | an empty filter returns the whole table; any other returns only records with that status and every such record; newest-first order is kept |
| ContactModel.FilterByStatusKeepsOrder | api/views.py:14-19 | the list query returns the records at exactly the positions the filter admits (all of them for ""), in table order, each once |
| ContactForm.With | frontend/src/components/ContactForm.js:32-35 | an edit sets exactly the named field and leaves the other six as they were |
| ContactForm.RequiredText | frontend/src/components/ContactForm.js:49-55 | a required text field is flagged, with its own message, iff it is whitespace only |
| ContactForm.EmailRule | frontend/src/components/ContactForm.js:57-61 | e-mail is "required" iff whitespace only, "invalid" iff it has non-whitespace but no match, unflagged iff it matches |
| ContactForm.Validate | frontend/src/components/ContactForm.js:46-76 | validation flags only the six checked fields, never `phone_number`, and every message is non-empty |
| ContactForm.ValidateRequiredText | frontend/src/components/ContactForm.js:49-73 | first name, last name and description are each flagged iff whitespace only, with their own messages |
| ContactForm.ValidateEmail | frontend/src/components/ContactForm.js:57-61 | the e-mail entry is "required" iff the value is whitespace only, and "invalid" iff it is non-blank and does not match; the two exclude each other |
| ContactForm.ValidateService | frontend/src/components/ContactForm.js:63-69 | service is flagged iff it is the empty string; `other_service` is flagged iff service is `other` and it is whitespace only |
| ContactForm.ValidateEmptyIffSubmittable | frontend/src/components/ContactForm.js:46-86 | validation finds nothing exactly when all six rules hold together, which is when submission proceeds |
| ContactForm.RulesIndependent | frontend/src/components/ContactForm.js:46-76 | editing one field changes no other field's entry, except that the service decides the `other_service` entry |
| ContactForm.CompleteDraftPasses | frontend/src/components/ContactForm.js:46-76 | a complete example inquiry (Ada Lovelace, ada@example.com, consulting) validates with no errors |
| ContactForm.EmailMessagesDistinguish | frontend/src/components/ContactForm.js:57-61 | "not-an-email" is reported invalid and "" required, whatever the other fields hold |
| ContactForm.HandleChange | frontend/src/components/ContactForm.js:30-44 | an edit stores the value in that field only; the error map keeps its keys, the field's entry becomes "", and the other entries are kept |
| ContactForm.HandleChangeHidesOnlyThatError | frontend/src/components/ContactForm.js:37-43 | after an edit the edited field shows no error, and every other field shows one exactly when it did before |
| ContactForm.HandleSubmit | frontend/src/components/ContactForm.js:78-110 | a draft with errors stores them and sends nothing; a clean draft is sent as is, and the form is reset to blank on success or kept with the fixed message on failure |
| ContactForm.SuccessRestoresInitialDraft | frontend/src/components/ContactForm.js:95-103 | after a successful submission the draft equals the form's initial draft |
| ContactForm.RetryResendsSameDraft | frontend/src/components/ContactForm.js:104-106 | after a failed submission, submitting again sends the same draft |
| ContactForm.BlankDraftIsBlocked | frontend/src/components/ContactForm.js:5-13 | the blank draft is never sent: it flags both names, e-mail as required, service and description |
| ContactForm.ServiceOptionsMatchModel | frontend/src/components/ContactForm.js:20-28 | the form's non-blank service options are the model's SERVICE_CHOICES: keys, labels and order |
| ContactList.PatchStatus | frontend/src/components/ContactList.js:53-57 | the patch keeps length, order and ids; records with the id get the new status and keep every other field; the rest are untouched |
| ContactList.PatchAbsentIsIdentity | frontend/src/components/ContactList.js:53-57 | when no record has the id the list is unchanged |
| ContactList.PatchLastWins | frontend/src/components/ContactList.js:53-57 | of two updates to one record the later wins, so repeating an update is idempotent and any status may follow any other |
| ContactList.PatchKeepsStoreOk | frontend/src/components/ContactList.js:53-57 | patching a well-formed list to a status key keeps it well-formed |
| ContactList.FetchContacts | frontend/src/components/ContactList.js:31-43 | a successful fetch replaces the list and clears the error; a failed one keeps the list and sets the fixed message; loading ends false |
| ContactList.ChangeFilter | frontend/src/components/ContactList.js:45-47 | choosing a filter changes only the current filter value |
| ContactList.HandleStatusUpdate | frontend/src/components/ContactList.js:49-61 | a successful update patches the list; a failed one changes nothing |
| ContactList.WithoutBlankKeepsNonBlank | frontend/src/components/ContactList.js:131 | a list with no blank value passes the option filter unchanged |
| ContactList.FilterChoicesMatchModel | frontend/src/components/ContactList.js:10-17 | the filter offers "All" (value "") and then the model's STATUS_CHOICES, labels and order included |
| ContactList.RowOptionsMatchModel | frontend/src/components/ContactList.js:131 | each row's selector offers exactly the model's five statuses |
| ContactList.FindLabel | frontend/src/components/ContactList.js:120 | the label lookup succeeds iff some option has the value, and returns the label of the first such option |
| ContactList.BadgesExtendModelColors | frontend/src/components/ContactList.js:19-25 | the badge classes are keyed by exactly the status keys, and each begins with the model's colour class for that key |
| ContactList.StoredStatusesHaveBadges | frontend/src/components/ContactList.js:117-120 | every status a well-formed table holds has a badge class and a label |
| ApiViews.GetContacts | api/views.py:12-22 | an absent or empty filter returns every record; any other returns only records with that status and every such record, newest first, and none when no record has it |
| ApiViews.GetContactsKeepsOrder | api/views.py:12-22 | the REST list is the table's records at exactly the positions the `status` parameter admits, in table order, each once |
| ApiViews.UnknownStatusFilterIsEmpty | api/views.py:18-19 | a filter outside the enumeration returns the empty list on a well-formed table |
| ApiViews.UpdateStatus | api/views.py:54-68 | 404 iff the id is unknown; 400 iff the id is known but the status is missing, empty or not a key; no change on either; on success only that record's status changes and it is returned |
| ApiViews.ServerUpdateMatchesClientPatch | api/views.py:62-66 | a successful server update leaves the table equal to the client's optimistic patch of it |
| ApiViews.UpdateKeepsStoreOk | api/views.py:62-64 | status updates keep the table well-formed |
| ApiViews.SubmitContactForm | api/views.py:24-52 | invalid data, including a submitted status that is not a key, answers 400 and creates nothing; valid data answers 201 and adds exactly one record with the new id and the serializer-cleaned fields, whose status is the submitted one or else `initial`, and whose creation time is the submitted one or else the clock |
| ApiViews.FormRequest | frontend/src/components/ContactForm.js:93 | the body the front end posts carries no `serving_status` or `created_at`, and always carries both optional fields |
| ApiViews.FormRequestKeepsDraft | frontend/src/components/ContactForm.js:93 | the posted body loses nothing: the draft reads back from it unchanged |
| ApiViews.RestClean | api/serializers.py:4-8 | the serializer's cleaning strips the four text fields and every present optional field (a blank one stays ""), takes the service as sent, and stores an optional field as NULL exactly when it was absent or null |
| ApiViews.SentDraftIsStored | frontend/src/components/ContactForm.js:78-93 | a draft the form lets through and the serializer accepts is stored with status `initial`, the server's clock, each text field stripped, the optional fields as strings (never NULL) and the service as chosen, which is non-empty |
| ApiViews.SubmitIgnoresMail | api/views.py:40-51 | whether the e-mail is sent changes neither the reply nor the table |
| ApiViews.InsertFreshKeepsUniqueIds | api/views.py:28 | saving a record under a fresh key keeps the keys unique |
| ApiViews.SubmitKeepsStoreOk | api/views.py:27-28 | creation keeps the table well-formed |
| ApiViews.TwoSubmissionsTwoRecords | api/views.py:24-52 | two accepted drafts posted from the front end's form create two records with distinct ids, both `initial` |
| ContactsViews.Index | contacts/views.py:8-24 | the index lists what the REST list returns for the same filter, with the status choices and the filter value |
| ContactsViews.UpdateStatus | contacts/views.py:58-65 | GET changes nothing; a POST for an unknown id raises; a POST with a status key sets only that record's status; any other status changes nothing |
| ContactsViews.UpdateViewsAgree | contacts/views.py:58-65 | for a known id, the page view and the REST view leave the table in the same state for every status value |
| ContactsViews.FormClean | contacts/forms.py:4-7 | the ModelForm's cleaning strips the four text fields, keeps a nullable field stripped when something is left, never stores "" there, and takes the service as sent |
| ContactsViews.ContactPage | contacts/views.py:26-56 | GET or an invalid form saves nothing; a valid POST saves exactly one record of the form-cleaned fields, and ends in a server error if the e-mail fails |
| ContactsViews.CreateViewsAgree | contacts/views.py:26-52 | the two cleanings agree on every column except the nullable ones, where a value blank after stripping is NULL on the page and "" over REST; with no such blank, both views store the same record for the same posted fields |
| ContactsViews.BlankPhoneStoredDifferently | contacts/views.py:26-31 | a blank phone number, which the front end's form posts when the field is left empty, is stored as NULL by the page view and as "" by the REST view |
| ListSync.MountShowsWholeTable | frontend/src/components/ContactList.js:27-29 | the fetch on mount, with no filter yet, shows the whole table and ends the loading state |
| ListSync.StatusParam | frontend/src/services/api.js:16 | an empty filter sends no `status` parameter, which the server reads as "" |
| ListSync.Refetch | frontend/src/components/ContactList.js:31-43 | a fetch of the current filter shows the server's filtered table |
| ListSync.UnfilteredPatchMatchesRefetch | frontend/src/components/ContactList.js:49-57 | with no filter, the optimistic patch shows exactly what a fetch after the update would show |
| ListSync.FilteredPatchIsStale | frontend/src/components/ContactList.js:49-57 | under a filter, a record moved to another status stays listed until the next fetch, which would drop it |

## Left out

- Rendering, CSS classes, `Navbar.js`, `App.js` routing and `tailwind.config.js` are left out: they are presentation only.
- `DarkModeToggle.js` is left out: it is browser storage and DOM I/O.
- The axios wrapper `services/api.js` is left out except its parameter rule, `ListSync.StatusParam`.
- Concurrent fetches and last-response-wins races are left out. Each handler is one step from a settled state to a settled state.
- ContactForm.HandleSubmit: states only the settled state after the request. The intermediate `isSubmitting == true` render is not modelled.
- `send_mail`, the ORM and the database are left out. Their effects are parameters: the e-mail outcome, the new key (assumed fresh) and the creation time.
- The serializer's and ModelForm's validation are left out. They are library code. Their cleaning is modelled (Python `strip()` of text, NULL for absent optional fields, and on the page also for blank ones), but their verdict is a boolean parameter, and `ContactModel.FieldsWithinModel` states the model's column constraints without tying them to that verdict. The one rule modelled is that the REST serializer rejects a submitted `serving_status` that is not a choice key (`ApiViews.Valid`).
- The address grammar of Django's `EmailField` is left out; only its 254-character bound is modelled.
- `created_at` is an abstract integer. Clocks are not modelled. Django leaves records with equal timestamps in no defined order; the model puts a new record first among them.
- ApiViews.UpdateStatus: a JSON `status` that is not a string is left out. For example, a list makes the dictionary test raise.
- JavaScript strings are UTF-16 code units. The model works on Dafny characters.
- `manage_db.py`, `ngrok_tunnel.py`, `contacts/admin.py` and the `urls.py` files are left out. They are configuration, filesystem and network I/O.

=== FILE: api_views.dfy ===
/** The REST views: list with an optional status filter, create from a
    submitted form, and update one record's status. The table is the
    sequence `Contact.objects.all()` returns; its primary keys are unique. */
module ApiViews {
  import opened Wrappers
  import opened Choices
  import opened ContactModel
  import opened Subsequence
  import ContactList
  import ContactForm
  import Text

  const HttpOk: int := 200
  const HttpCreated: int := 201
  const HttpBadRequest: int := 400
  const HttpNotFound: int := 404

  /** `get_contacts`: the `status` query parameter, absent read as "". */
  function GetContacts(store: seq<Contact>, statusParam: Option<string>): (r: seq<Contact>)
    ensures statusParam.GetOr("") == "" ==> r == store
    ensures statusParam.GetOr("") != "" ==>
      && (forall k | 0 <= k < |r| :: r[k] in store && r[k].serving_status == statusParam.value)
      && (forall k | 0 <= k < |store| && store[k].serving_status == statusParam.value :: store[k] in r)
    ensures statusParam.GetOr("") != "" && (forall k | 0 <= k < |store| :: store[k].serving_status != statusParam.value) ==> r == []
    ensures NewestFirst(store) ==> NewestFirst(r)
  {
    var filter := statusParam.GetOr("");
    assert filter != "" && (forall k | 0 <= k < |store| :: store[k].serving_status != filter) ==>
           FilterByStatus(store, filter) == [] by {
      if filter != "" && forall k | 0 <= k < |store| :: store[k].serving_status != filter {
        WithStatusNoneMatching(store, filter);
      }
    }
    FilterByStatus(store, filter)
  }

  /** The list is exactly the records the filter admits, each once and in
      table order: positions `idx` of the table, strictly increasing, that
      are all the positions with that status (all positions for "" or an
      absent parameter). */
  lemma GetContactsKeepsOrder(store: seq<Contact>, statusParam: Option<string>) returns (idx: seq<nat>)
    ensures PicksInOrder(store, GetContacts(store, statusParam), idx)
    ensures forall i | 0 <= i < |store| ::
      i in idx <==> statusParam.GetOr("") == "" || store[i].serving_status == statusParam.value
  {
    idx := FilterByStatusKeepsOrder(store, statusParam.GetOr(""));
  }

  /** A filter for a value outside the enumeration is not an error: it
      returns the empty list on a well-formed table. */
  lemma UnknownStatusFilterIsEmpty(store: seq<Contact>, status: string)
    requires StatusesValid(store)
    requires status != "" && !IsStatusKey(status)
    ensures GetContacts(store, Some(status)) == []
  {
  }

  datatype UpdateOutcome = Updated(contact: Contact) | NotFound | InvalidStatus

  datatype UpdateReply = UpdateReply(store: seq<Contact>, outcome: UpdateOutcome) {
    function Code(): int {
      match outcome
      case Updated(_) => HttpOk
      case NotFound => HttpNotFound
      case InvalidStatus => HttpBadRequest
    }
  }

  /** `new_status and new_status in dict(Contact.STATUS_CHOICES)`. */
  predicate AcceptableStatus(status: Option<string>) {
    status.Some? && status.value != "" && IsStatusKey(status.value)
  }

  /** `update_status`: 404 for an unknown id, 400 for a missing, empty or
      unknown status, otherwise set that record's status (from any status
      to any other) and return the record. Nothing changes on an error. */
  function UpdateStatus(store: seq<Contact>, id: int, status: Option<string>): (r: UpdateReply)
    requires UniqueIds(store)
    ensures r.outcome.NotFound? <==> !HasId(store, id)
    ensures r.outcome.InvalidStatus? <==> HasId(store, id) && !AcceptableStatus(status)
    ensures !r.outcome.Updated? ==> r.store == store
    ensures r.outcome.Updated? ==>
      && |r.store| == |store|
      && (forall i | 0 <= i < |store| && store[i].id != id :: r.store[i] == store[i])
      && (forall i | 0 <= i < |store| && store[i].id == id ::
            r.store[i] == store[i].(serving_status := status.value) && r.outcome.contact == r.store[i])
  {
    match FindById(store, id)
    case None => UpdateReply(store, NotFound)
    case Some(k) =>
      if AcceptableStatus(status) then
        var c := store[k].(serving_status := status.value);
        UpdateReply(store[k := c], Updated(c))
      else UpdateReply(store, InvalidStatus)
  }

  /** The server's update and the client's optimistic patch agree: on
      success, the table afterwards is exactly the client's patched list. */
  lemma ServerUpdateMatchesClientPatch(store: seq<Contact>, id: int, status: Option<string>)
    requires UniqueIds(store)
    requires UpdateStatus(store, id, status).outcome.Updated?
    ensures UpdateStatus(store, id, status).store == ContactList.PatchStatus(store, id, status.value)
  {
  }

  /** A successful update keeps the table well-formed. */
  lemma UpdateKeepsStoreOk(store: seq<Contact>, id: int, status: Option<string>)
    requires StoreOk(store)
    ensures StoreOk(UpdateStatus(store, id, status).store)
  {
    var r := UpdateStatus(store, id, status);
    if r.outcome.Updated? {
      ServerUpdateMatchesClientPatch(store, id, status);
      ContactList.PatchKeepsStoreOk(store, id, status.value);
    }
  }

  datatype SubmitReply = SubmitReply(store: seq<Contact>, code: int, created: Option<Contact>)

  /** The body of a create request as the serializer reads it: the seven
      form fields, plus `serving_status` and `created_at`, which the
      serializer lists and, having model defaults, accepts as optional
      writable fields. `id` is read-only, so a submitted one is ignored. */
  datatype CreateRequest = CreateRequest(sub: Submission, status: Option<string>, createdAt: Option<int>)

  /** The body the front end's form posts (`submitContactForm(formData)`):
      the seven draft strings under their own keys, the optional ones
      included even when empty, and no `serving_status` or `created_at`. */
  function FormRequest(d: ContactForm.FormData): (req: CreateRequest)
    ensures req.status.None? && req.createdAt.None?
    ensures req.sub.phone_number.Some? && req.sub.other_service.Some?
  {
    CreateRequest(
      Submission(d.first_name, d.last_name, d.email, Some(d.phone_number),
                 d.service, Some(d.other_service), d.description),
      None, None)
  }

  /** Reading a draft back out of a request body; absent keys read as "". */
  function DraftOf(req: CreateRequest): ContactForm.FormData {
    var sub := req.sub;
    ContactForm.FormData(sub.first_name, sub.last_name, sub.email, sub.phone_number.GetOr(""),
                         sub.service, sub.other_service.GetOr(""), sub.description)
  }

  /** Posting loses nothing of the draft. */
  lemma FormRequestKeepsDraft(d: ContactForm.FormData)
    ensures DraftOf(FormRequest(d)) == d
  {
  }

  /** How the serializer's fields clean the body: every text field is
      stripped of Python whitespace (`trim_whitespace`), and a blank one
      stays "" since the optional columns allow blanks; an absent or null
      optional field is stored as NULL; the service is a choice and is
      taken as sent. */
  function RestClean(sub: Submission): (c: Submission)
    ensures c.first_name == Text.Strip(sub.first_name) && c.last_name == Text.Strip(sub.last_name)
    ensures c.email == Text.Strip(sub.email) && c.description == Text.Strip(sub.description)
    ensures c.service == sub.service
    ensures c.phone_number.Some? <==> sub.phone_number.Some?
    ensures c.other_service.Some? <==> sub.other_service.Some?
    ensures sub.phone_number.Some? ==> c.phone_number == Some(Text.Strip(sub.phone_number.value))
    ensures sub.other_service.Some? ==> c.other_service == Some(Text.Strip(sub.other_service.value))
  {
    Submission(Text.Strip(sub.first_name), Text.Strip(sub.last_name), Text.Strip(sub.email),
               StripPresent(sub.phone_number), sub.service, StripPresent(sub.other_service),
               Text.Strip(sub.description))
  }

  function StripPresent(o: Option<string>): (r: Option<string>)
    ensures r.Some? <==> o.Some?
    ensures o.Some? ==> r == Some(Text.Strip(o.value))
  {
    match o
    case None => None
    case Some(v) => Some(Text.Strip(v))
  }

  /** The serializer's verdict. `accepted` is its verdict on everything the
      model does not spell out (the field grammars and lengths); a submitted
      `serving_status` must in addition be one of the choice keys. */
  predicate Valid(req: CreateRequest, accepted: bool) {
    accepted && (req.status.Some? ==> IsStatusKey(req.status.value))
  }

  /** `submit_contact_form`. `accepted` is the serializer's verdict on the
      request, `newId` the key the database assigns, `now` the clock read
      by the `created_at` default, `mailSent` whether the notification
      e-mail went out. Invalid data creates nothing and answers 400; valid
      data creates exactly one record and answers 201 whether or not the
      e-mail was sent. The record holds the cleaned fields, and takes the
      submitted status and creation time when the body carries them, the
      defaults otherwise. */
  function SubmitContactForm(store: seq<Contact>, req: CreateRequest, accepted: bool,
                             newId: int, now: int, mailSent: bool): (r: SubmitReply)
    requires !HasId(store, newId)
    ensures !Valid(req, accepted) ==> r == SubmitReply(store, HttpBadRequest, None)
    ensures req.status.Some? && !IsStatusKey(req.status.value) ==> r.code == HttpBadRequest
    ensures Valid(req, accepted) ==> r.code == HttpCreated && r.created.Some?
    ensures Valid(req, accepted) ==>
      var c := r.created.value;
      && c.id == newId && Fields(c) == RestClean(req.sub)
      && c.created_at == (if req.createdAt.Some? then req.createdAt.value else now)
      && c.serving_status == (if req.status.Some? then req.status.value else DefaultStatus)
      && IsStatusKey(c.serving_status)
      && |r.store| == |store| + 1
      && multiset(r.store) == multiset(store) + multiset{c}
  {
    if Valid(req, accepted) then
      KeysFitColumns();
      var c := NewContact(RestClean(req.sub), newId, req.createdAt.GetOr(now)).(serving_status := req.status.GetOr(DefaultStatus));
      SubmitReply(Insert(store, c), HttpCreated, Some(c))
    else
      SubmitReply(store, HttpBadRequest, None)
  }

  /** The notification e-mail has no bearing on the reply or the table. */
  lemma SubmitIgnoresMail(store: seq<Contact>, req: CreateRequest, accepted: bool, newId: int, now: int)
    requires !HasId(store, newId)
    ensures SubmitContactForm(store, req, accepted, newId, now, true)
         == SubmitContactForm(store, req, accepted, newId, now, false)
  {
  }

  /** What the form sends is what is stored. When the client's validation
      lets a draft through and the serializer accepts the body, the new
      record holds the draft's text fields stripped of surrounding
      whitespace, the optional ones as (possibly empty) strings rather than
      NULL, the chosen service as sent, status `initial` and the server's
      clock. */
  lemma SentDraftIsStored(s: ContactForm.FormState, store: seq<Contact>, newId: int, now: int, mailSent: bool)
    requires !HasId(store, newId)
    requires ContactForm.HandleSubmit(s, true).sent.Some?
    ensures
      var d := ContactForm.HandleSubmit(s, true).sent.value;
      var r := SubmitContactForm(store, FormRequest(d), true, newId, now, mailSent);
      && r.code == HttpCreated
      && var c := r.created.value;
      && c.serving_status == DefaultStatus && c.created_at == now
      && c.first_name == Text.Strip(d.first_name) && c.last_name == Text.Strip(d.last_name)
      && c.email == Text.Strip(d.email) && c.description == Text.Strip(d.description)
      && c.phone_number == Some(Text.Strip(d.phone_number))
      && c.other_service == Some(Text.Strip(d.other_service))
      && c.service == d.service && c.service != ""
  {
    var d := ContactForm.HandleSubmit(s, true).sent.value;
    ContactForm.ValidateEmptyIffSubmittable(d);
  }

  /** A fresh id keeps the keys unique. */
  lemma InsertFreshKeepsUniqueIds(store: seq<Contact>, c: Contact)
    requires UniqueIds(store)
    requires !HasId(store, c.id)
    ensures UniqueIds(Insert(store, c))
  {
    var r := Insert(store, c);
    var m := InsertSplits(store, c);
    forall i, j | 0 <= i < j < |r|
      ensures r[i].id != r[j].id
    {
      if j < m {
        assert r[i] == store[i] && r[j] == store[j];
      } else if j == m {
        assert r[i] == store[i];
      } else if i < m {
        assert r[i] == store[i] && r[j] == store[j - 1];
      } else if i == m {
        assert r[j] == store[j - 1];
      } else {
        assert r[i] == store[i - 1] && r[j] == store[j - 1];
      }
    }
  }

  /** An accepted submission keeps the table well-formed: ordered newest
      first, unique keys, valid statuses. */
  lemma SubmitKeepsStoreOk(store: seq<Contact>, req: CreateRequest, accepted: bool,
                           newId: int, now: int, mailSent: bool)
    requires StoreOk(store)
    requires !HasId(store, newId)
    ensures StoreOk(SubmitContactForm(store, req, accepted, newId, now, mailSent).store)
  {
    if Valid(req, accepted) {
      var c := SubmitContactForm(store, req, accepted, newId, now, mailSent).created.value;
      var r := Insert(store, c);
      InsertNewestFirst(store, c);
      InsertFreshKeepsUniqueIds(store, c);
      forall i | 0 <= i < |r|
        ensures IsStatusKey(r[i].serving_status)
      {
        assert r[i] in multiset(store) + multiset{c};
      }
    }
  }

  /** Posting two drafts from the front end's form creates two records
      with distinct ids, both in the default status. */
  lemma TwoSubmissionsTwoRecords(store: seq<Contact>, d1: ContactForm.FormData, d2: ContactForm.FormData,
                                 id1: int, id2: int, t1: int, t2: int, m1: bool, m2: bool)
    requires !HasId(store, id1)
    requires !HasId(SubmitContactForm(store, FormRequest(d1), true, id1, t1, m1).store, id2)
    ensures
      var r1 := SubmitContactForm(store, FormRequest(d1), true, id1, t1, m1);
      var r2 := SubmitContactForm(r1.store, FormRequest(d2), true, id2, t2, m2);
      && r1.created.value.id != r2.created.value.id
      && r1.created.value.serving_status == r2.created.value.serving_status == DefaultStatus
      && |r2.store| == |store| + 2
  {
    var r1 := SubmitContactForm(store, FormRequest(d1), true, id1, t1, m1);
    var c1 := r1.created.value;
    assert c1 in multiset(r1.store);
    var k :| 0 <= k < |r1.store| && r1.store[k] == c1;
  }
}

=== FILE: choices.dfy ===
/** The enumerations of the `Contact` model: serving statuses and services,
    as the (key, label) lists the model declares, plus the status colour
    helper and the column length bounds they must fit. */
module Choices {
  import opened Wrappers
  import opened Subsequence

  /** A (value, label) pair, the shape shared by Django choices and the
      front end's option lists. */
  type Choice = (string, string)

  /** The value column of a choice list, in order. */
  function Values(choices: seq<Choice>): (vs: seq<string>)
    ensures |vs| == |choices|
    ensures forall i | 0 <= i < |choices| :: vs[i] == choices[i].0
  {
    if |choices| == 0 then [] else [choices[0].0] + Values(choices[1..])
  }

  /** The options whose value is not "" (`options.filter(o => o.value !== '')`),
      in their original order. */
  function WithoutBlank(options: seq<Choice>): (r: seq<Choice>)
    ensures |r| <= |options|
    ensures forall k | 0 <= k < |r| :: r[k].0 != "" && r[k] in options
    ensures forall k | 0 <= k < |options| && options[k].0 != "" :: options[k] in r
  {
    if |options| == 0 then []
    else
      var rest := WithoutBlank(options[1..]);
      assert forall k | 1 <= k < |options| :: options[k] == options[1..][k - 1];
      if options[0].0 != "" then [options[0]] + rest else rest
  }

  /** The option filter keeps order and multiplicity: it picks exactly the
      positions whose value is not "", in order. */
  lemma {:induction false} WithoutBlankKeepsOrder(options: seq<Choice>) returns (idx: seq<nat>)
    ensures PicksInOrder(options, WithoutBlank(options), idx)
    ensures forall i | 0 <= i < |options| :: i in idx <==> options[i].0 != ""
  {
    if |options| == 0 {
      idx := [];
    } else {
      var rest := WithoutBlankKeepsOrder(options[1..]);
      var tail := WithoutBlank(options[1..]);
      if options[0].0 != "" {
        PicksWithHead(options, tail, rest);
        idx := [0] + Shift(rest);
      } else {
        PicksFromTail(options, tail, rest);
        idx := Shift(rest);
      }
      forall i | 0 < i < |options|
        ensures i - 1 in rest <==> options[i].0 != ""
      {
        assert options[1..][i - 1] == options[i];
      }
    }
  }

  /** No value occurs twice. */
  predicate Distinct(vs: seq<string>) {
    forall i, j | 0 <= i < j < |vs| :: vs[i] != vs[j]
  }

  datatype Status = Initial | InContact | Done | NoResponse | Ignore {

    function Key(): string {
      match this
      case Initial => "initial"
      case InContact => "in_contact"
      case Done => "done"
      case NoResponse => "no_response"
      case Ignore => "ignore"
    }

    function Label(): string {
      match this
      case Initial => "Initial"
      case InContact => "In Contact"
      case Done => "Done"
      case NoResponse => "No Response"
      case Ignore => "Ignore"
    }
  }

  datatype Service = WebDevelopment | MobileApp | UiUx | Consulting | Maintenance | Other {

    function Key(): string {
      match this
      case WebDevelopment => "web_development"
      case MobileApp => "mobile_app"
      case UiUx => "ui_ux"
      case Consulting => "consulting"
      case Maintenance => "maintenance"
      case Other => "other"
    }

    function Label(): string {
      match this
      case WebDevelopment => "Web Development"
      case MobileApp => "Mobile App Development"
      case UiUx => "UI/UX Design"
      case Consulting => "IT Consulting"
      case Maintenance => "Maintenance & Support"
      case Other => "Other"
    }
  }

  const AllStatuses: seq<Status> := [Initial, InContact, Done, NoResponse, Ignore]
  const AllServices: seq<Service> := [WebDevelopment, MobileApp, UiUx, Consulting, Maintenance, Other]

  /** `Contact.STATUS_CHOICES`, in declaration order. */
  const StatusChoices: seq<Choice> := [
    ("initial", "Initial"),
    ("in_contact", "In Contact"),
    ("done", "Done"),
    ("no_response", "No Response"),
    ("ignore", "Ignore")
  ]

  /** `Contact.SERVICE_CHOICES`, in declaration order. */
  const ServiceChoices: seq<Choice> := [
    ("web_development", "Web Development"),
    ("mobile_app", "Mobile App Development"),
    ("ui_ux", "UI/UX Design"),
    ("consulting", "IT Consulting"),
    ("maintenance", "Maintenance & Support"),
    ("other", "Other")
  ]

  /** `serving_status` default. */
  const DefaultStatus: string := "initial"

  /** `max_length` of the model's character columns. */
  const NameMaxLength: nat := 50
  const ServiceMaxLength: nat := 50
  const OtherServiceMaxLength: nat := 100
  const PhoneMaxLength: nat := 20
  const StatusMaxLength: nat := 20
  /** `EmailField`'s default `max_length`. */
  const EmailMaxLength: nat := 254

  /** The keys of the two enumerations, in declaration order. */
  const StatusKeys: seq<string> := [Initial.Key(), InContact.Key(), Done.Key(), NoResponse.Key(), Ignore.Key()]
  const ServiceKeys: seq<string> :=
    [WebDevelopment.Key(), MobileApp.Key(), UiUx.Key(), Consulting.Key(), Maintenance.Key(), Other.Key()]

  /** `s in dict(Contact.STATUS_CHOICES)`. */
  predicate IsStatusKey(s: string) {
    s in StatusKeys
  }

  /** `s in dict(Contact.SERVICE_CHOICES)`. */
  predicate IsServiceKey(s: string) {
    s in ServiceKeys
  }

  /** The declared choice lists are exactly the enumerations, pair by pair
      and in order; they have five and six entries with distinct keys. */
  lemma ChoicesMatchEnumerations()
    ensures |StatusChoices| == |AllStatuses| == 5
    ensures forall i | 0 <= i < 5 :: StatusChoices[i] == (AllStatuses[i].Key(), AllStatuses[i].Label())
    ensures Values(StatusChoices) == StatusKeys && Distinct(StatusKeys)
    ensures |ServiceChoices| == |AllServices| == 6
    ensures forall i | 0 <= i < 6 :: ServiceChoices[i] == (AllServices[i].Key(), AllServices[i].Label())
    ensures Values(ServiceChoices) == ServiceKeys && Distinct(ServiceKeys)
  {
  }

  /** The service keys, in order, are the value column of `SERVICE_CHOICES`. */
  lemma ServiceKeysAreChoiceValues()
    ensures Values(ServiceChoices) == ServiceKeys
  {
    ChoicesMatchEnumerations();
  }

  /** Reading a status key back: defined exactly on the five keys, and the
      inverse of `Status.Key`. */
  function ParseStatus(s: string): (r: Option<Status>)
    ensures r.Some? <==> IsStatusKey(s)
    ensures r.Some? ==> r.value.Key() == s
  {
    if s == "initial" then Some(Initial)
    else if s == "in_contact" then Some(InContact)
    else if s == "done" then Some(Done)
    else if s == "no_response" then Some(NoResponse)
    else if s == "ignore" then Some(Ignore)
    else None
  }

  /** Reading a service key back: defined exactly on the six keys, and the
      inverse of `Service.Key`. */
  function ParseService(s: string): (r: Option<Service>)
    ensures r.Some? <==> IsServiceKey(s)
    ensures r.Some? ==> r.value.Key() == s
  {
    if s == "web_development" then Some(WebDevelopment)
    else if s == "mobile_app" then Some(MobileApp)
    else if s == "ui_ux" then Some(UiUx)
    else if s == "consulting" then Some(Consulting)
    else if s == "maintenance" then Some(Maintenance)
    else if s == "other" then Some(Other)
    else None
  }

  lemma KeyRoundTrips(st: Status, sv: Service)
    ensures ParseStatus(st.Key()) == Some(st)
    ensures ParseService(sv.Key()) == Some(sv)
  {
  }

  /** Every status key fits the 20-character `serving_status` column, every
      service key the 50-character `service` column, and the default status
      is one of the keys. */
  lemma KeysFitColumns()
    ensures forall st: Status :: |st.Key()| <= StatusMaxLength
    ensures forall sv: Service :: |sv.Key()| <= ServiceMaxLength
    ensures IsStatusKey(DefaultStatus)
  {
  }

  /** The table inside `Contact.get_status_color`. */
  const StatusColorTable: map<string, string> := map[
    "initial" := "bg-gray-200",
    "in_contact" := "bg-blue-200",
    "done" := "bg-green-200",
    "no_response" := "bg-red-200",
    "ignore" := "bg-yellow-200"
  ]

  const FallbackColor: string := "bg-gray-200"

  /** `Contact.get_status_color`: total over all strings. A status key gets
      its listed class; anything else falls back to the class of `initial`. */
  function StatusColor(s: string): (r: string)
    ensures r in StatusColorTable.Values
    ensures IsStatusKey(s) ==> s in StatusColorTable && r == StatusColorTable[s]
    ensures !IsStatusKey(s) ==> r == StatusColorTable[DefaultStatus]
  {
    if s in StatusColorTable then StatusColorTable[s]
    else
      assert StatusColorTable[DefaultStatus] in StatusColorTable.Values;
      FallbackColor
  }

  /** The colour table is keyed by exactly the status keys. */
  lemma ColorTableKeyedByStatuses()
    ensures forall k :: k in StatusColorTable <==> IsStatusKey(k)
  {
  }
}

=== FILE: contact_form.dfy ===
/** The contact form's client-side state: the seven-field draft, the
    per-field validation rules, the edit handler and the submit handler. */
module ContactForm {
  import opened Wrappers
  import opened Text
  import opened EmailPattern
  import opened Choices

  datatype Field = FirstName | LastName | Email | PhoneNumber | Service | OtherService | Description

  /** The draft the form holds; every input is a string. */
  datatype FormData = FormData(
    first_name: string,
    last_name: string,
    email: string,
    phone_number: string,
    service: string,
    other_service: string,
    description: string)

  function Get(d: FormData, f: Field): string {
    match f
    case FirstName => d.first_name
    case LastName => d.last_name
    case Email => d.email
    case PhoneNumber => d.phone_number
    case Service => d.service
    case OtherService => d.other_service
    case Description => d.description
  }

  /** `{...formData, [name]: value}`. */
  function With(d: FormData, f: Field, v: string): (d': FormData)
    ensures Get(d', f) == v
    ensures forall g | g != f :: Get(d', g) == Get(d, g)
  {
    match f
    case FirstName => d.(first_name := v)
    case LastName => d.(last_name := v)
    case Email => d.(email := v)
    case PhoneNumber => d.(phone_number := v)
    case Service => d.(service := v)
    case OtherService => d.(other_service := v)
    case Description => d.(description := v)
  }

  /** The initial draft, which a successful submission restores. */
  const EmptyForm: FormData := FormData("", "", "", "", "", "", "")

  /** Field name to message; an entry whose message is "" is present but falsy. */
  type Errors = map<Field, string>

  const FirstNameRequired: string := "First name is required"
  const LastNameRequired: string := "Last name is required"
  const EmailRequired: string := "Email is required"
  const EmailInvalid: string := "Email is invalid"
  const ServiceRequired: string := "Please select a service"
  const OtherServiceRequired: string := "Please specify the service"
  const DescriptionRequired: string := "Description is required"

  /** The fields a rule can flag; `phone_number` has no rule. */
  const CheckedFields: set<Field> := {FirstName, LastName, Email, Service, OtherService, Description}

  /** The rule for a required text input: flagged exactly when the value
      trims to "" (consists of whitespace only). */
  function RequiredText(s: string, message: string): (r: Option<string>)
    ensures r.Some? <==> AllWS(s)
    ensures r.Some? ==> r.value == message
  {
    BlankIffAllWS(s);
    if IsBlank(s) then Some(message) else None
  }

  /** The e-mail rule: "required" when the value trims to "", otherwise
      "invalid" when the pattern does not match the untrimmed value. The two
      outcomes exclude each other. */
  function EmailRule(s: string): (r: Option<string>)
    ensures r.Some? <==> !LooksLikeEmail(s)
    ensures r == Some(EmailRequired) <==> AllWS(s)
    ensures r == Some(EmailInvalid) <==> !AllWS(s) && !LooksLikeEmail(s)
  {
    BlankIffAllWS(s);
    if IsBlank(s) then Some(EmailRequired)
    else if !LooksLikeEmail(s) then Some(EmailInvalid)
    else None
  }

  /** The message `validateForm` records for one field, if any. */
  function Rule(d: FormData, f: Field): (r: Option<string>)
    ensures r.Some? ==> r.value != ""
    ensures f == PhoneNumber ==> r.None?
  {
    match f
    case FirstName => RequiredText(d.first_name, FirstNameRequired)
    case LastName => RequiredText(d.last_name, LastNameRequired)
    case Email => EmailRule(d.email)
    case PhoneNumber => None
    case Service => if d.service == "" then Some(ServiceRequired) else None
    case OtherService =>
      if d.service == "other" then RequiredText(d.other_service, OtherServiceRequired) else None
    case Description => RequiredText(d.description, DescriptionRequired)
  }

  /** `validateForm`: six independent rules, each adding at most one entry;
      every rule is evaluated whatever the others decide. No rule looks at
      `phone_number`, and every recorded message is truthy. */
  function Validate(d: FormData): (errs: Errors)
    ensures errs.Keys <= CheckedFields
    ensures PhoneNumber !in errs
    ensures forall f | f in errs :: errs[f] != ""
  {
    map f | f in CheckedFields && Rule(d, f).Some? :: Rule(d, f).value
  }

  /** First name, last name and description: each is flagged, with its own
      message, exactly when it is whitespace only. */
  lemma ValidateRequiredText(d: FormData)
    ensures FirstName in Validate(d) <==> AllWS(d.first_name)
    ensures FirstName in Validate(d) ==> Validate(d)[FirstName] == FirstNameRequired
    ensures LastName in Validate(d) <==> AllWS(d.last_name)
    ensures LastName in Validate(d) ==> Validate(d)[LastName] == LastNameRequired
    ensures Description in Validate(d) <==> AllWS(d.description)
    ensures Description in Validate(d) ==> Validate(d)[Description] == DescriptionRequired
  {
  }

  /** E-mail: "required" exactly when whitespace only; "invalid" exactly when
      it has a non-whitespace character but the pattern finds no match; no
      entry otherwise. */
  lemma ValidateEmail(d: FormData)
    ensures Email in Validate(d) <==> !LooksLikeEmail(d.email)
    ensures Email in Validate(d) && Validate(d)[Email] == EmailRequired <==> AllWS(d.email)
    ensures Email in Validate(d) && Validate(d)[Email] == EmailInvalid <==> !AllWS(d.email) && !LooksLikeEmail(d.email)
  {
  }

  /** Service: flagged exactly when it is "" (not trimmed, not checked
      against the options). Other service: flagged exactly when the service
      is "other" and it is whitespace only; never for any other service. */
  lemma ValidateService(d: FormData)
    ensures Service in Validate(d) <==> d.service == ""
    ensures Service in Validate(d) ==> Validate(d)[Service] == ServiceRequired
    ensures OtherService in Validate(d) <==> d.service == "other" && AllWS(d.other_service)
    ensures OtherService in Validate(d) ==> Validate(d)[OtherService] == OtherServiceRequired
  {
  }

  /** The rule set read as one condition: the draft can be sent. */
  predicate Submittable(d: FormData) {
    && !AllWS(d.first_name)
    && !AllWS(d.last_name)
    && LooksLikeEmail(d.email)
    && d.service != ""
    && (d.service == "other" ==> !AllWS(d.other_service))
    && !AllWS(d.description)
  }

  /** Validation finds nothing exactly when every rule is satisfied. */
  lemma ValidateEmptyIffSubmittable(d: FormData)
    ensures Validate(d) == map[] <==> Submittable(d)
  {
    if Submittable(d) {
      SubmittablePasses(d);
    } else {
      UnsubmittableFails(d);
    }
  }

  lemma SubmittablePasses(d: FormData)
    requires Submittable(d)
    ensures Validate(d) == map[]
  {
    forall f | f in CheckedFields
      ensures Rule(d, f).None?
    {
      match f
      case FirstName => assert RequiredText(d.first_name, FirstNameRequired).None?;
      case LastName => assert RequiredText(d.last_name, LastNameRequired).None?;
      case Email => assert EmailRule(d.email).None?;
      case Service =>
      case OtherService =>
      case Description => assert RequiredText(d.description, DescriptionRequired).None?;
    }
    assert Validate(d).Keys == {};
  }

  lemma UnsubmittableFails(d: FormData)
    requires !Submittable(d)
    ensures Validate(d) != map[]
  {
    ValidateRequiredText(d);
    ValidateEmail(d);
    ValidateService(d);
  }

  /** The entry for field `f`, if any. */
  function Entry(errs: Errors, f: Field): Option<string> {
    if f in errs then Some(errs[f]) else None
  }

  /** Rules are independent: editing field `f` can change the entry of `f`
      itself and, when `f` is the service, the entry of `other_service`;
      every other entry is the same before and after. */
  lemma RulesIndependent(d: FormData, f: Field, v: string)
    ensures forall h | h != f && (f != Service || h != OtherService) ::
      Entry(Validate(With(d, f, v)), h) == Entry(Validate(d), h)
  {
    var d' := With(d, f, v);
    forall h | h != f && (f != Service || h != OtherService)
      ensures Entry(Validate(d'), h) == Entry(Validate(d), h)
    {
      assert Rule(d', h) == Rule(d, h);
    }
  }

  /** The example draft of a complete inquiry passes validation. */
  lemma CompleteDraftPasses()
    ensures Validate(FormData("Ada", "Lovelace", "ada@example.com", "", "consulting", "", "Need advice")) == map[]
  {
    var d := FormData("Ada", "Lovelace", "ada@example.com", "", "consulting", "", "Need advice");
    assert EmailAt(d.email, 3, 11);
    assert !IsWS(d.first_name[0]) && !IsWS(d.last_name[0]) && !IsWS(d.description[0]);
    SubmittablePasses(d);
  }

  /** An address without `@` is reported invalid, an empty one required:
      the two messages tell the cases apart. */
  lemma EmailMessagesDistinguish(d: FormData)
    ensures Entry(Validate(d.(email := "not-an-email")), Email) == Some(EmailInvalid)
    ensures Entry(Validate(d.(email := "")), Email) == Some(EmailRequired)
  {
    var bad: string := "not-an-email";
    var d1 := d.(email := bad);
    NoAtSignNoEmail(bad);
    assert !IsWS(bad[0]);
    assert !AllWS(d1.email);
    assert EmailRule(d1.email) == Some(EmailInvalid);
    ValidateEmail(d1);
    assert Email in Validate(d1);
    ValidateEmail(d.(email := ""));
  }

  /** The component's state: the draft, the error map, and the three
      submission flags. */
  datatype FormState = FormState(
    data: FormData,
    errors: Errors,
    isSubmitting: bool,
    submitSuccess: bool,
    submitError: string)

  const InitialState: FormState := FormState(EmptyForm, map[], false, false, "")

  const SubmitFailedMessage: string := "Failed to submit your request. Please try again later."

  /** An error is displayed for `f` when its entry is truthy. */
  predicate Shown(errs: Errors, f: Field) {
    f in errs && errs[f] != ""
  }

  /** `handleChange`: store the value, and blank the field's error if it was
      truthy. */
  function HandleChange(s: FormState, f: Field, v: string): (s': FormState)
    ensures Get(s'.data, f) == v
    ensures forall g | g != f :: Get(s'.data, g) == Get(s.data, g)
    ensures s'.errors.Keys == s.errors.Keys
    ensures f in s'.errors ==> s'.errors[f] == ""
    ensures forall g | g != f && g in s.errors :: s'.errors[g] == s.errors[g]
    ensures s'.isSubmitting == s.isSubmitting && s'.submitSuccess == s.submitSuccess
    ensures s'.submitError == s.submitError
  {
    var errors := if Shown(s.errors, f) then s.errors[f := ""] else s.errors;
    s.(data := With(s.data, f, v), errors := errors)
  }

  /** After an edit, the edited field shows no error and every other field
      shows one exactly when it did before. */
  lemma HandleChangeHidesOnlyThatError(s: FormState, f: Field, v: string)
    ensures !Shown(HandleChange(s, f, v).errors, f)
    ensures forall g | g != f :: Shown(HandleChange(s, f, v).errors, g) == Shown(s.errors, g)
  {
  }

  /** What a submit attempt did: the resulting state, and the draft that was
      posted to the create endpoint, if any. */
  datatype SubmitOutcome = SubmitOutcome(state: FormState, sent: Option<FormData>)

  /** `handleSubmit`, with the outcome of the create request given as
      `apiSucceeds`. */
  function HandleSubmit(s: FormState, apiSucceeds: bool): (o: SubmitOutcome)
    ensures o.sent.Some? <==> Validate(s.data) == map[]
    ensures o.sent.Some? ==> o.sent.value == s.data
    ensures o.sent.None? ==> o.state == s.(errors := Validate(s.data))
    ensures o.sent.Some? ==> !o.state.isSubmitting && o.state.errors == s.errors
    ensures o.sent.Some? && apiSucceeds ==>
      o.state.data == EmptyForm && o.state.submitSuccess && o.state.submitError == ""
    ensures o.sent.Some? && !apiSucceeds ==>
      o.state.data == s.data && !o.state.submitSuccess && o.state.submitError == SubmitFailedMessage
  {
    var errors := Validate(s.data);
    if |errors| > 0 then
      SubmitOutcome(s.(errors := errors), None)
    else
      var pending := s.(isSubmitting := true, submitError := "", submitSuccess := false);
      var settled :=
        if apiSucceeds then pending.(submitSuccess := true, data := EmptyForm)
        else pending.(submitError := SubmitFailedMessage);
      SubmitOutcome(settled.(isSubmitting := false), Some(s.data))
  }

  /** A successful submission leaves the draft exactly as the form started. */
  lemma SuccessRestoresInitialDraft(s: FormState)
    requires Submittable(s.data)
    ensures HandleSubmit(s, true).state.data == InitialState.data
  {
    ValidateEmptyIffSubmittable(s.data);
  }

  /** A failed submission keeps the draft, so submitting again posts the very
      same draft without retyping. */
  lemma RetryResendsSameDraft(s: FormState, again: bool)
    requires HandleSubmit(s, false).sent.Some?
    ensures HandleSubmit(HandleSubmit(s, false).state, again).sent == Some(s.data)
  {
  }

  /** The blank draft (initial and after a reset) is never sent: it flags the
      two names, e-mail (as required), service and description. */
  lemma BlankDraftIsBlocked(s: FormState)
    requires s.data == EmptyForm
    ensures HandleSubmit(s, true).sent.None?
    ensures Validate(EmptyForm).Keys == {FirstName, LastName, Email, Service, Description}
    ensures Entry(Validate(EmptyForm), Email) == Some(EmailRequired)
  {
    BlankDraftErrors();
  }

  /** The entries validation records for the blank draft. */
  lemma BlankDraftErrors()
    ensures Validate(EmptyForm).Keys == {FirstName, LastName, Email, Service, Description}
    ensures Entry(Validate(EmptyForm), Email) == Some(EmailRequired)
  {
    var d := EmptyForm;
    var expected := {FirstName, LastName, Email, Service, Description};
    forall f
      ensures f in Validate(d) <==> f in expected
    {
      match f
      case FirstName => assert RequiredText(d.first_name, FirstNameRequired).Some?;
      case LastName => assert RequiredText(d.last_name, LastNameRequired).Some?;
      case Email => assert EmailRule(d.email) == Some(EmailRequired);
      case PhoneNumber =>
      case Service =>
      case OtherService =>
      case Description => assert RequiredText(d.description, DescriptionRequired).Some?;
    }
    assert Rule(d, Email) == Some(EmailRequired);
  }

  /** `serviceOptions`: a blank placeholder, then the services. */
  const ServiceOptions: seq<Choice> := [
    ("", "Select a service"),
    ("web_development", "Web Development"),
    ("mobile_app", "Mobile App Development"),
    ("ui_ux", "UI/UX Design"),
    ("consulting", "IT Consulting"),
    ("maintenance", "Maintenance & Support"),
    ("other", "Other")
  ]

  /** The form's non-blank service options are the model's `SERVICE_CHOICES`,
      keys, labels and order alike. */
  lemma ServiceOptionsMatchModel()
    ensures ServiceOptions[0].0 == ""
    ensures ServiceOptions[1..] == ServiceChoices
    ensures forall o | o in ServiceOptions && o.0 != "" :: IsServiceKey(o.0)
    ensures forall k | IsServiceKey(k) :: exists o | o in ServiceOptions :: o.0 == k
  {
    assert ServiceOptions[1..] == ServiceChoices;
    ServiceOptionValuesAreKeys();
    ServiceKeysAreOffered();
  }

  /** Every non-placeholder option value is a service key. */
  lemma ServiceOptionValuesAreKeys()
    ensures forall o | o in ServiceOptions && o.0 != "" :: IsServiceKey(o.0)
  {
    ServiceKeysAreChoiceValues();
    forall o | o in ServiceOptions && o.0 != ""
      ensures IsServiceKey(o.0)
    {
      var i :| 0 <= i < |ServiceOptions| && ServiceOptions[i] == o;
      assert o.0 == ServiceKeys[i - 1];
    }
  }

  /** Every service key is offered. */
  lemma ServiceKeysAreOffered()
    ensures forall k | IsServiceKey(k) :: exists o | o in ServiceOptions :: o.0 == k
  {
    ServiceKeysAreChoiceValues();
    forall k | IsServiceKey(k)
      ensures exists o | o in ServiceOptions :: o.0 == k
    {
      var i :| 0 <= i < |ServiceKeys| && ServiceKeys[i] == k;
      assert ServiceOptions[i + 1].0 == k;
      assert ServiceOptions[i + 1] in ServiceOptions;
    }
  }
}

=== FILE: contact_list.dfy ===
/** The contact list's client-side state: the fetched list, the loading and
    error flags, the optimistic status patch, and the status option lists. */
module ContactList {
  import opened Wrappers
  import opened Choices
  import opened ContactModel

  /** `contacts.map(c => c.id === id ? {...c, serving_status: status} : c)`:
      same length and order, the records with that id get the new status and
      keep every other field, all other records are untouched. */
  function PatchStatus(cs: seq<Contact>, id: int, status: string): (r: seq<Contact>)
    ensures |r| == |cs|
    ensures forall i | 0 <= i < |cs| :: r[i].id == cs[i].id
    ensures forall i | 0 <= i < |cs| && cs[i].id == id ::
      r[i].serving_status == status && r[i].(serving_status := cs[i].serving_status) == cs[i]
    ensures forall i | 0 <= i < |cs| && cs[i].id != id :: r[i] == cs[i]
  {
    if |cs| == 0 then []
    else
      var head := if cs[0].id == id then cs[0].(serving_status := status) else cs[0];
      [head] + PatchStatus(cs[1..], id, status)
  }

  /** When no record has the id, the list comes back unchanged. */
  lemma PatchAbsentIsIdentity(cs: seq<Contact>, id: int, status: string)
    requires !HasId(cs, id)
    ensures PatchStatus(cs, id, status) == cs
  {
  }

  /** The later of two updates to the same record wins; in particular
      repeating an update changes nothing. Statuses form no sequence of
      stages: any status may follow any other. */
  lemma PatchLastWins(cs: seq<Contact>, id: int, a: string, b: string)
    ensures PatchStatus(PatchStatus(cs, id, a), id, b) == PatchStatus(cs, id, b)
    ensures PatchStatus(PatchStatus(cs, id, b), id, b) == PatchStatus(cs, id, b)
  {
  }

  /** Patching touches neither ids nor timestamps, so the store invariants
      other than the status set are kept; with a status key, all are. */
  lemma PatchKeepsStoreOk(cs: seq<Contact>, id: int, status: string)
    requires StoreOk(cs)
    requires IsStatusKey(status)
    ensures StoreOk(PatchStatus(cs, id, status))
  {
  }

  datatype ListState = ListState(
    contacts: seq<Contact>,
    loading: bool,
    error: Option<string>,
    currentStatus: string)

  /** On mount: nothing loaded yet, loading, no error, no filter. */
  const InitialListState: ListState := ListState([], true, None, "")

  const FetchFailedMessage: string := "Failed to fetch contacts. Please try again later."

  /** `fetchContacts`, with the response given as `response` (None for a
      failed request). */
  function FetchContacts(s: ListState, response: Option<seq<Contact>>): (s': ListState)
    ensures !s'.loading && s'.currentStatus == s.currentStatus
    ensures response.Some? ==> s'.contacts == response.value && s'.error == None
    ensures response.None? ==> s'.contacts == s.contacts && s'.error == Some(FetchFailedMessage)
  {
    var loading := s.(loading := true);
    var settled :=
      match response
      case Some(data) => loading.(contacts := data, error := None)
      case None => loading.(error := Some(FetchFailedMessage));
    settled.(loading := false)
  }

  /** `handleStatusChange`: a new filter value, which triggers a fetch. */
  function ChangeFilter(s: ListState, value: string): (s': ListState)
    ensures s'.currentStatus == value
    ensures s'.contacts == s.contacts && s'.loading == s.loading && s'.error == s.error
  {
    s.(currentStatus := value)
  }

  /** `handleStatusUpdate`, with the outcome of the update request given as
      `requestSucceeded`: patch the list on success; on failure only log, so
      nothing changes. */
  function HandleStatusUpdate(s: ListState, id: int, status: string, requestSucceeded: bool): (s': ListState)
    ensures !requestSucceeded ==> s' == s
    ensures requestSucceeded ==> s'.contacts == PatchStatus(s.contacts, id, status)
    ensures s'.loading == s.loading && s'.error == s.error && s'.currentStatus == s.currentStatus
  {
    if requestSucceeded then s.(contacts := PatchStatus(s.contacts, id, status)) else s
  }

  /** `statusChoices`: "All" (value "") and then the five statuses. */
  const StatusFilterChoices: seq<Choice> := [
    ("", "All"),
    ("initial", "Initial"),
    ("in_contact", "In Contact"),
    ("done", "Done"),
    ("no_response", "No Response"),
    ("ignore", "Ignore")
  ]

  /** The options of each row's status selector. */
  function RowStatusOptions(): seq<Choice> {
    WithoutBlank(StatusFilterChoices)
  }

  /** A list with no blank value loses nothing to the filter. */
  lemma {:induction false} WithoutBlankKeepsNonBlank(options: seq<Choice>)
    requires forall k | 0 <= k < |options| :: options[k].0 != ""
    ensures WithoutBlank(options) == options
  {
    if |options| > 0 {
      WithoutBlankKeepsNonBlank(options[1..]);
      assert options == [options[0]] + options[1..];
    }
  }

  lemma StatusKeysNonBlank()
    ensures forall k | 0 <= k < |StatusChoices| :: StatusChoices[k].0 != ""
  {
    forall k | 0 <= k < |StatusChoices|
      ensures StatusChoices[k].0 != ""
    {
      ChoicesMatchEnumerations();
      assert StatusChoices[k].0 == AllStatuses[k].Key();
    }
  }

  /** The filter offers "All" (value "") followed by the model's statuses,
      with the model's labels, in the model's order. */
  lemma FilterChoicesMatchModel()
    ensures StatusFilterChoices == [("", "All")] + StatusChoices
  {
    assert StatusFilterChoices[1..] == StatusChoices;
  }

  /** Each row's selector offers exactly the model's five statuses: the
      "All" entry is the only one the filter drops. */
  lemma RowOptionsMatchModel()
    ensures RowStatusOptions() == StatusChoices
  {
    FilterChoicesMatchModel();
    var rest := StatusFilterChoices[1..];
    assert rest == StatusChoices;
    assert WithoutBlank(StatusFilterChoices) == WithoutBlank(rest);
    StatusKeysNonBlank();
    WithoutBlankKeepsNonBlank(StatusChoices);
  }

  /** `statusColors`. */
  const StatusBadgeClasses: map<string, string> := map[
    "initial" := "bg-gray-200 text-gray-800",
    "in_contact" := "bg-blue-200 text-blue-800",
    "done" := "bg-green-200 text-green-800",
    "no_response" := "bg-red-200 text-red-800",
    "ignore" := "bg-yellow-200 text-yellow-800"
  ]

  /** `statusChoices.find(s => s.value === value)?.label`. */
  function FindLabel(choices: seq<Choice>, value: string): (r: Option<string>)
    ensures r.Some? <==> exists k | 0 <= k < |choices| :: choices[k].0 == value
    ensures r.Some? ==> (value, r.value) in choices
    ensures r.Some? ==> exists k | 0 <= k < |choices| :: choices[k] == (value, r.value) && forall j | 0 <= j < k :: choices[j].0 != value
  {
    if |choices| == 0 then None
    else if choices[0].0 == value then Some(choices[0].1)
    else
      var r := FindLabel(choices[1..], value);
      assert forall k | 1 <= k < |choices| :: choices[k] == choices[1..][k - 1];
      r
  }

  /** One status's badge class begins with the model's colour class. */
  lemma StatusBadgeExtendsColor(st: Status)
    ensures st.Key() in StatusBadgeClasses
    ensures StatusColor(st.Key()) <= StatusBadgeClasses[st.Key()]
  {
    var k := st.Key();
    assert IsStatusKey(k);
    assert StatusColor(k) == StatusColorTable[k];
  }

  /** The filter list has a label for every status. */
  lemma StatusHasLabel(st: Status)
    ensures FindLabel(StatusFilterChoices, st.Key()).Some?
  {
    match st
    case Initial => assert StatusFilterChoices[1].0 == "initial";
    case InContact => assert StatusFilterChoices[2].0 == "in_contact";
    case Done => assert StatusFilterChoices[3].0 == "done";
    case NoResponse => assert StatusFilterChoices[4].0 == "no_response";
    case Ignore => assert StatusFilterChoices[5].0 == "ignore";
  }

  /** The badge classes are keyed by exactly the model's status keys, and
      each begins with the model's `get_status_color` class for that key. */
  lemma BadgesExtendModelColors()
    ensures forall k :: k in StatusBadgeClasses <==> IsStatusKey(k)
    ensures forall k | k in StatusBadgeClasses :: StatusColor(k) <= StatusBadgeClasses[k]
  {
    forall k | k in StatusBadgeClasses
      ensures StatusColor(k) <= StatusBadgeClasses[k]
    {
      StatusBadgeExtendsColor(ParseStatus(k).value);
    }
  }

  /** Every stored status has a badge colour and a label. */
  lemma StoredStatusesHaveBadges(cs: seq<Contact>)
    requires StatusesValid(cs)
    ensures forall i | 0 <= i < |cs| ::
      cs[i].serving_status in StatusBadgeClasses && FindLabel(StatusFilterChoices, cs[i].serving_status).Some?
  {
    forall i | 0 <= i < |cs|
      ensures cs[i].serving_status in StatusBadgeClasses
      ensures FindLabel(StatusFilterChoices, cs[i].serving_status).Some?
    {
      var st := ParseStatus(cs[i].serving_status).value;
      StatusBadgeExtendsColor(st);
      StatusHasLabel(st);
    }
  }
}

=== FILE: contact_model.dfy ===
/** The stored `Contact` record, its creation defaults, its string form, its
    default ordering (newest first) and the two queryset operations the views
    use: filtering on `serving_status` and fetching one record by id. */
module ContactModel {
  import opened Wrappers
  import opened Choices
  import opened Subsequence

  /** A stored contact. `created_at` is an abstract, totally ordered
      timestamp; `phone_number` and `other_service` are nullable columns. */
  datatype Contact = Contact(
    id: int,
    first_name: string,
    last_name: string,
    email: string,
    phone_number: Option<string>,
    service: string,
    other_service: Option<string>,
    description: string,
    serving_status: string,
    created_at: int)

  /** The writable fields a create request carries. */
  datatype Submission = Submission(
    first_name: string,
    last_name: string,
    email: string,
    phone_number: Option<string>,
    service: string,
    other_service: Option<string>,
    description: string)

  /** The record that saving a submission creates: the storage-assigned id,
      the creation time, the default status, and the submitted fields. */
  function NewContact(sub: Submission, id: int, now: int): (c: Contact)
    ensures c.id == id && c.created_at == now
    ensures c.serving_status == DefaultStatus
    ensures Fields(c) == sub
  {
    Contact(id, sub.first_name, sub.last_name, sub.email, sub.phone_number,
            sub.service, sub.other_service, sub.description, DefaultStatus, now)
  }

  /** The submitted part of a stored record. */
  function Fields(c: Contact): Submission {
    Submission(c.first_name, c.last_name, c.email, c.phone_number,
               c.service, c.other_service, c.description)
  }

  /** The column constraints the model declares: required (non-blank)
      character columns within their `max_length`, a service among the
      choices, and the optional columns within their bounds when present.
      Nothing ties `other_service` to `service`. */
  predicate FieldsWithinModel(sub: Submission) {
    && 0 < |sub.first_name| <= NameMaxLength
    && 0 < |sub.last_name| <= NameMaxLength
    && 0 < |sub.email| <= EmailMaxLength
    && 0 < |sub.service| <= ServiceMaxLength && IsServiceKey(sub.service)
    && (sub.other_service.Some? ==> |sub.other_service.value| <= OtherServiceMaxLength)
    && (sub.phone_number.Some? ==> |sub.phone_number.value| <= PhoneMaxLength)
    && 0 < |sub.description|
  }

  /** The model accepts a request for the `other` service whose
      `other_service` and `phone_number` are null or blank. */
  lemma OtherServiceNotRequired(first: string, last: string, email: string, description: string, blank: Option<string>)
    requires 0 < |first| <= NameMaxLength && 0 < |last| <= NameMaxLength
    requires 0 < |email| <= EmailMaxLength && 0 < |description|
    requires blank == None || blank == Some("")
    ensures FieldsWithinModel(Submission(first, last, email, blank, "other", blank, description))
  {
  }

  /** `Contact.__str__`: first name, a space, last name, " - ", service. */
  function Str(c: Contact): (r: string)
    ensures |r| == |c.first_name| + |c.last_name| + |c.service| + 4
    ensures r[..|c.first_name|] == c.first_name
    ensures r[|c.first_name|] == ' '
    ensures r[|c.first_name| + 1..|c.first_name| + 1 + |c.last_name|] == c.last_name
    ensures r[|c.first_name| + 1 + |c.last_name|..|r| - |c.service|] == " - "
    ensures r[|r| - |c.service|..] == c.service
  {
    c.first_name + " " + c.last_name + " - " + c.service
  }

  /** `Meta.ordering = ['-created_at']`: newest first. */
  predicate NewestFirst(cs: seq<Contact>) {
    forall i, j | 0 <= i < j < |cs| :: cs[i].created_at >= cs[j].created_at
  }

  /** Primary keys are unique. */
  predicate UniqueIds(cs: seq<Contact>) {
    forall i, j | 0 <= i < j < |cs| :: cs[i].id != cs[j].id
  }

  /** Every stored status is one of the declared keys. */
  predicate StatusesValid(cs: seq<Contact>) {
    forall i | 0 <= i < |cs| :: IsStatusKey(cs[i].serving_status)
  }

  /** The table as `Contact.objects.all()` returns it: ordered by the
      model's default ordering, with unique ids and valid statuses. */
  predicate StoreOk(cs: seq<Contact>) {
    NewestFirst(cs) && UniqueIds(cs) && StatusesValid(cs)
  }

  predicate HasId(cs: seq<Contact>, id: int) {
    exists i | 0 <= i < |cs| :: cs[i].id == id
  }

  /** Placing a new record in the default ordering: before the first record
      that is not newer than it. Records with equal timestamps have no
      defined relative order; the new one is put first among them. */
  function Insert(cs: seq<Contact>, c: Contact): (r: seq<Contact>)
    ensures |r| == |cs| + 1
    ensures multiset(r) == multiset(cs) + multiset{c}
  {
    if |cs| == 0 || c.created_at >= cs[0].created_at then
      [c] + cs
    else
      assert cs == [cs[0]] + cs[1..];
      [cs[0]] + Insert(cs[1..], c)
  }

  /** Inserting keeps the records newest first. */
  lemma {:induction false} InsertNewestFirst(cs: seq<Contact>, c: Contact)
    requires NewestFirst(cs)
    ensures NewestFirst(Insert(cs, c))
  {
    if |cs| == 0 || c.created_at >= cs[0].created_at {
    } else {
      InsertNewestFirst(cs[1..], c);
      var r := Insert(cs, c);
      forall j | 1 <= j < |r|
        ensures r[0].created_at >= r[j].created_at
      {
        assert r[j] in multiset(Insert(cs[1..], c));
        assert r[j] in multiset(cs[1..]) || r[j] == c;
      }
    }
  }

  /** Insertion splices the new record into the old sequence at one
      position; returns that position. */
  lemma {:induction false} InsertSplits(cs: seq<Contact>, c: Contact) returns (m: nat)
    ensures m <= |cs| && Insert(cs, c) == cs[..m] + [c] + cs[m..]
  {
    if |cs| == 0 || c.created_at >= cs[0].created_at {
      m := 0;
    } else {
      var m' := InsertSplits(cs[1..], c);
      m := m' + 1;
      assert cs[..m] == [cs[0]] + cs[1..][..m'];
      assert cs[m..] == cs[1..][m'..];
    }
  }

  /** `Contact.objects.get(id=id)`: the position of the record with that id,
      or None (DoesNotExist) when there is none. */
  function FindById(cs: seq<Contact>, id: int): (r: Option<nat>)
    ensures r.Some? ==> r.value < |cs| && cs[r.value].id == id
    ensures r.None? <==> !HasId(cs, id)
  {
    if |cs| == 0 then None
    else if cs[0].id == id then Some(0)
    else
      match FindById(cs[1..], id)
      case Some(k) => Some(k + 1)
      case None => None
  }

  /** With unique ids, the record found is the only one with that id. */
  lemma FindByIdUnique(cs: seq<Contact>, id: int, i: int)
    requires UniqueIds(cs)
    requires 0 <= i < |cs| && cs[i].id == id
    ensures FindById(cs, id) == Some(i)
  {
  }

  /** `queryset.filter(serving_status=status)`, keeping the queryset order. */
  function WithStatus(cs: seq<Contact>, status: string): (r: seq<Contact>)
    ensures |r| <= |cs|
    ensures forall k | 0 <= k < |r| :: r[k] in cs && r[k].serving_status == status
    ensures forall k | 0 <= k < |cs| && cs[k].serving_status == status :: cs[k] in r
  {
    if |cs| == 0 then []
    else
      var rest := WithStatus(cs[1..], status);
      assert forall k | 1 <= k < |cs| :: cs[k] == cs[1..][k - 1];
      if cs[0].serving_status == status then [cs[0]] + rest else rest
  }

  /** The filter is an order-preserving selection: the records it returns
      are those at exactly the positions whose status matches, in table
      order, each once. */
  lemma {:induction false} WithStatusKeepsOrder(cs: seq<Contact>, status: string) returns (idx: seq<nat>)
    ensures PicksInOrder(cs, WithStatus(cs, status), idx)
    ensures forall i | 0 <= i < |cs| :: i in idx <==> cs[i].serving_status == status
  {
    if |cs| == 0 {
      idx := [];
    } else {
      var rest := WithStatusKeepsOrder(cs[1..], status);
      var tail := WithStatus(cs[1..], status);
      if cs[0].serving_status == status {
        PicksWithHead(cs, tail, rest);
        idx := [0] + Shift(rest);
      } else {
        PicksFromTail(cs, tail, rest);
        idx := Shift(rest);
      }
      forall i | 0 < i < |cs|
        ensures i - 1 in rest <==> cs[i].serving_status == status
      {
        assert cs[1..][i - 1] == cs[i];
      }
    }
  }

  /** Filtering selects no record newer than every record it started from. */
  lemma {:induction false} WithStatusBounded(cs: seq<Contact>, status: string, newest: int)
    requires forall i | 0 <= i < |cs| :: cs[i].created_at <= newest
    ensures forall j | 0 <= j < |WithStatus(cs, status)| :: WithStatus(cs, status)[j].created_at <= newest
  {
    if |cs| > 0 {
      WithStatusBounded(cs[1..], status, newest);
    }
  }

  /** A record no older than anything after it, followed by a list in
      newest-first order, is in newest-first order. */
  lemma ConsNewestFirst(c: Contact, rest: seq<Contact>)
    requires NewestFirst(rest)
    requires forall j | 0 <= j < |rest| :: c.created_at >= rest[j].created_at
    ensures NewestFirst([c] + rest)
  {
    var r := [c] + rest;
    forall i, j | 0 <= i < j < |r|
      ensures r[i].created_at >= r[j].created_at
    {
      assert r[j] == rest[j - 1];
      if i > 0 {
        assert r[i] == rest[i - 1];
      }
    }
  }

  /** Filtering keeps the records newest first. */
  lemma {:induction false} WithStatusNewestFirst(cs: seq<Contact>, status: string)
    requires NewestFirst(cs)
    ensures NewestFirst(WithStatus(cs, status))
  {
    if |cs| > 0 {
      var tail := cs[1..];
      assert NewestFirst(tail);
      WithStatusNewestFirst(tail, status);
      WithStatusBounded(tail, status, cs[0].created_at);
      if cs[0].serving_status == status {
        ConsNewestFirst(cs[0], WithStatus(tail, status));
      }
    }
  }

  /** A status no record has selects nothing. */
  lemma WithStatusNoneMatching(cs: seq<Contact>, status: string)
    requires forall k | 0 <= k < |cs| :: cs[k].serving_status != status
    ensures WithStatus(cs, status) == []
  {
  }

  /** The list view's query: all records when the filter is "" (absent or
      empty), otherwise exactly the records with that status, in order. */
  function FilterByStatus(cs: seq<Contact>, filter: string): (r: seq<Contact>)
    ensures filter == "" ==> r == cs
    ensures forall k | 0 <= k < |r| :: r[k] in cs && (filter == "" || r[k].serving_status == filter)
    ensures forall k | 0 <= k < |cs| && (filter == "" || cs[k].serving_status == filter) :: cs[k] in r
    ensures NewestFirst(cs) ==> NewestFirst(r)
  {
    if filter == "" then cs
    else
      assert NewestFirst(cs) ==> NewestFirst(WithStatus(cs, filter)) by {
        if NewestFirst(cs) {
          WithStatusNewestFirst(cs, filter);
        }
      }
      WithStatus(cs, filter)
  }

  /** The list query is an order-preserving selection of exactly the
      records the filter admits: all of them for "", otherwise those with
      that status. */
  lemma FilterByStatusKeepsOrder(cs: seq<Contact>, filter: string) returns (idx: seq<nat>)
    ensures PicksInOrder(cs, FilterByStatus(cs, filter), idx)
    ensures forall i | 0 <= i < |cs| :: i in idx <==> filter == "" || cs[i].serving_status == filter
  {
    if filter == "" {
      PicksAll(cs);
      idx := AllPositions(|cs|);
    } else {
      idx := WithStatusKeepsOrder(cs, filter);
    }
  }
}

=== FILE: contacts_views.dfy ===
/** The server-rendered views: the index page with its status filter, the
    contact form page, and the status update endpoint that redirects back
    to the index. */
module ContactsViews {
  import opened Wrappers
  import opened Choices
  import opened ContactModel
  import ApiViews
  import ContactList
  import Text

  /** The views test only `request.method == 'POST'`; every other method
      (GET, HEAD, PUT, ...) takes the same path. */
  datatype HttpMethod = NotPost | Post

  /** What the index template receives. */
  datatype IndexPage = IndexPage(contacts: seq<Contact>, statusChoices: seq<Choice>, currentStatus: string)

  /** `index`: the same filter as the REST list, plus the choices for the
      filter drop-down and the current filter value ("" when absent). */
  function Index(store: seq<Contact>, statusParam: Option<string>): (page: IndexPage)
    ensures page.contacts == ApiViews.GetContacts(store, statusParam)
    ensures statusParam.GetOr("") == "" ==> page.contacts == store
    ensures page.statusChoices == StatusChoices
    ensures page.currentStatus == statusParam.GetOr("")
  {
    var filter := statusParam.GetOr("");
    IndexPage(FilterByStatus(store, filter), StatusChoices, filter)
  }

  /** How a request ends: redirected to the index, the form page rendered
      again, or an uncaught exception (a server error). */
  datatype ViewOutcome = RedirectToIndex | RenderForm | DoesNotExist | MailFailed

  datatype ViewReply = ViewReply(store: seq<Contact>, outcome: ViewOutcome)

  /** `update_status`. Only a POST does anything. The record is looked up
      without a guard, so an unknown id raises (DoesNotExist). A status that
      is a choice key replaces the record's status; any other value, or
      none, leaves the table alone. Both non-error paths redirect. */
  function UpdateStatus(store: seq<Contact>, verb: HttpMethod, id: int, status: Option<string>): (r: ViewReply)
    requires UniqueIds(store)
    ensures verb == NotPost ==> r == ViewReply(store, RedirectToIndex)
    ensures verb == Post && !HasId(store, id) ==> r == ViewReply(store, DoesNotExist)
    ensures verb == Post && HasId(store, id) ==> r.outcome == RedirectToIndex
    ensures !(status.Some? && IsStatusKey(status.value)) ==> r.store == store
    ensures verb == Post && status.Some? && IsStatusKey(status.value) ==>
      && |r.store| == |store|
      && (forall i | 0 <= i < |store| && store[i].id != id :: r.store[i] == store[i])
      && (forall i | 0 <= i < |store| && store[i].id == id :: r.store[i] == store[i].(serving_status := status.value))
  {
    if verb == NotPost then ViewReply(store, RedirectToIndex)
    else
      match FindById(store, id)
      case None => ViewReply(store, DoesNotExist)
      case Some(k) =>
        if status.Some? && IsStatusKey(status.value) then
          ViewReply(store[k := store[k].(serving_status := status.value)], RedirectToIndex)
        else ViewReply(store, RedirectToIndex)
  }

  /** Where the record exists, the page endpoint and the REST endpoint leave
      the table in the same state for every status value: the REST view's
      extra emptiness test excludes nothing the choice test admits. They
      differ on an unknown id (404 there, an exception here) and on GET. */
  lemma UpdateViewsAgree(store: seq<Contact>, id: int, status: Option<string>)
    requires UniqueIds(store)
    requires HasId(store, id)
    ensures UpdateStatus(store, Post, id, status).store == ApiViews.UpdateStatus(store, id, status).store
  {
    KeysFitColumns();
    if status.Some? && IsStatusKey(status.value) {
      assert status.value != "" by {
        ContactList.StatusKeysNonBlank();
      }
    }
  }

  /** How the ModelForm cleans the posted fields: every text field is
      stripped of Python whitespace (`strip`); a nullable column that is
      absent, or blank once stripped, becomes NULL (`empty_value=None`);
      the service is a choice and is taken as sent. */
  function FormClean(sub: Submission): (c: Submission)
    ensures c.first_name == Text.Strip(sub.first_name) && c.last_name == Text.Strip(sub.last_name)
    ensures c.email == Text.Strip(sub.email) && c.description == Text.Strip(sub.description)
    ensures c.service == sub.service
    ensures c.phone_number != Some("") && c.other_service != Some("")
    ensures c.phone_number.Some? ==> sub.phone_number.Some?
    ensures c.other_service.Some? ==> sub.other_service.Some?
    ensures sub.phone_number.Some? && Text.Strip(sub.phone_number.value) != "" ==>
      c.phone_number == Some(Text.Strip(sub.phone_number.value))
    ensures sub.other_service.Some? && Text.Strip(sub.other_service.value) != "" ==>
      c.other_service == Some(Text.Strip(sub.other_service.value))
  {
    Submission(Text.Strip(sub.first_name), Text.Strip(sub.last_name), Text.Strip(sub.email),
               NullIfBlank(sub.phone_number), sub.service, NullIfBlank(sub.other_service),
               Text.Strip(sub.description))
  }

  function NullIfBlank(o: Option<string>): (r: Option<string>)
    ensures r != Some("")
    ensures r.Some? ==> o.Some?
    ensures o.Some? && Text.Strip(o.value) != "" ==> r == Some(Text.Strip(o.value))
  {
    match o
    case None => None
    case Some(v) => var t := Text.Strip(v); if t == "" then None else Some(t)
  }

  /** `contact`. GET renders an empty form. A POST whose form does not
      validate (`formValid` is the ModelForm's verdict) renders the form
      again and saves nothing. A valid POST saves the cleaned record first
      and then sends the e-mail with no handler around it: when sending
      fails the record is already saved and the request ends in a server
      error. */
  function ContactPage(store: seq<Contact>, verb: HttpMethod, sub: Submission, formValid: bool,
                   newId: int, now: int, mailSent: bool): (r: ViewReply)
    requires !HasId(store, newId)
    ensures verb == NotPost || !formValid ==> r == ViewReply(store, RenderForm)
    ensures verb == Post && formValid ==>
      && |r.store| == |store| + 1
      && multiset(r.store) == multiset(store) + multiset{NewContact(FormClean(sub), newId, now)}
      && r.outcome == (if mailSent then RedirectToIndex else MailFailed)
  {
    if verb == Post && formValid then
      var saved := Insert(store, NewContact(FormClean(sub), newId, now));
      ViewReply(saved, if mailSent then RedirectToIndex else MailFailed)
    else
      ViewReply(store, RenderForm)
  }

  /** The two cleanings agree on every column except the nullable ones,
      where a value that is blank once stripped is NULL for the page view
      and "" for the REST view. So for the same posted fields (and no
      `serving_status` or `created_at` in the REST body) both views store
      the same record unless an optional field is blank. */
  lemma CreateViewsAgree(store: seq<Contact>, sub: Submission, newId: int, now: int, mailSent: bool)
    requires !HasId(store, newId)
    ensures
      var page := FormClean(sub);
      var rest := ApiViews.RestClean(sub);
      && page.(phone_number := rest.phone_number, other_service := rest.other_service) == rest
      && page.phone_number == (if rest.phone_number == Some("") then None else rest.phone_number)
      && page.other_service == (if rest.other_service == Some("") then None else rest.other_service)
    ensures ApiViews.RestClean(sub).phone_number != Some("") && ApiViews.RestClean(sub).other_service != Some("") ==>
      ContactPage(store, Post, sub, true, newId, now, mailSent).store
      == ApiViews.SubmitContactForm(store, ApiViews.CreateRequest(sub, None, None), true, newId, now, mailSent).store
  {
  }

  /** A blank phone number, as the front end's form posts it when the field
      is left empty, is stored as NULL by the page view and as "" by the
      REST view: the two tables differ. */
  lemma BlankPhoneStoredDifferently(store: seq<Contact>, sub: Submission, newId: int, now: int, mailSent: bool)
    requires !HasId(store, newId)
    requires sub.phone_number == Some("")
    ensures FormClean(sub).phone_number == None
    ensures ApiViews.RestClean(sub).phone_number == Some("")
    ensures ContactPage(store, Post, sub, true, newId, now, mailSent).store
         != ApiViews.SubmitContactForm(store, ApiViews.CreateRequest(sub, None, None), true, newId, now, mailSent).store
  {
    assert Text.Strip("") == "";
    var p := NewContact(FormClean(sub), newId, now);
    var q := ApiViews.SubmitContactForm(store, ApiViews.CreateRequest(sub, None, None), true, newId, now, mailSent).created.value;
    assert p != q by {
      assert p.phone_number != q.phone_number;
    }
    assert (multiset(store) + multiset{p})[p] == multiset(store)[p] + 1;
    assert (multiset(store) + multiset{q})[p] == multiset(store)[p];
  }
}

=== FILE: email_pattern.dfy ===
/** The contact form's e-mail test, the unanchored regular expression
    /\S+@\S+\.\S+/ applied to the raw (untrimmed) field value. */
module EmailPattern {
  import opened Text

  /** s[lo..hi) is a non-empty run of non-whitespace characters (`\S+`). */
  predicate NonWSRun(s: string, lo: int, hi: int) {
    0 <= lo < hi <= |s| && forall k | lo <= k < hi :: !IsWS(s[k])
  }

  /** The regular expression matches the substring s[i..j), its `@` being s[p]
      and the escaped `.` being s[q]: \S+ on s[i..p), \S+ on s[p+1..q),
      \S+ on s[q+1..j). Each `\S+` may itself contain `@` or `.`. */
  predicate RegexMatchAt(s: string, i: int, p: int, q: int, j: int) {
    && 0 <= i < p < q < j <= |s|
    && NonWSRun(s, i, p)
    && s[p] == '@'
    && NonWSRun(s, p + 1, q)
    && s[q] == '.'
    && NonWSRun(s, q + 1, j)
  }

  /** `/\S+@\S+\.\S+/.test(s)`: the pattern matches somewhere in `s`. */
  ghost predicate RegexMatches(s: string) {
    exists i, p, q, j :: RegexMatchAt(s, i, p, q, j)
  }

  /** The same test read off two positions: an `@` at p preceded by a
      non-whitespace character, a `.` at q with a non-empty run of
      non-whitespace strictly between them, and a non-whitespace character
      right after the `.`. */
  predicate EmailAt(s: string, p: int, q: int) {
    && 0 < p && p + 1 < q && q + 1 < |s|
    && s[p] == '@' && s[q] == '.'
    && !IsWS(s[p - 1])
    && (forall k | p < k < q :: !IsWS(s[k]))
    && !IsWS(s[q + 1])
  }

  predicate LooksLikeEmail(s: string) {
    exists p, q | 0 <= p < |s| && 0 <= q < |s| :: EmailAt(s, p, q)
  }

  /** The two-position reading agrees with the regular expression on every
      string: a match can always be shrunk to one character on either side,
      and one character on either side is already a match. */
  lemma RegexMatchesIffLooksLikeEmail(s: string)
    ensures RegexMatches(s) <==> LooksLikeEmail(s)
  {
    if RegexMatches(s) {
      var i, p, q, j :| RegexMatchAt(s, i, p, q, j);
      assert EmailAt(s, p, q);
    }
    if LooksLikeEmail(s) {
      var p, q :| 0 <= p < |s| && 0 <= q < |s| && EmailAt(s, p, q);
      assert RegexMatchAt(s, p - 1, p, q, q + 2);
    }
  }

  /** A whitespace-only string never looks like an address, so the form's
      "required" and "invalid" outcomes cannot both apply. */
  lemma AllWSIsNotEmail(s: string)
    requires AllWS(s)
    ensures !LooksLikeEmail(s)
  {
  }

  /** Without an `@` there is nothing to match. */
  lemma NoAtSignNoEmail(s: string)
    requires '@' !in s
    ensures !LooksLikeEmail(s)
  {
  }

  /** A single left-to-right scan deciding the pattern: for every `@` with a
      non-whitespace character before it, walk the following run of
      non-whitespace looking for a `.` that has a non-whitespace successor. */
  method MatchEmail(s: string) returns (found: bool)
    ensures found <==> LooksLikeEmail(s)
  {
    var p := 0;
    while p < |s|
      invariant 0 <= p <= |s|
      invariant forall p', q' | 0 <= p' < p && 0 <= q' < |s| :: !EmailAt(s, p', q')
    {
      if 0 < p && s[p] == '@' && !IsWS(s[p - 1]) {
        var k := p + 1;
        while k < |s| && !IsWS(s[k])
          invariant p + 1 <= k <= |s|
          invariant forall m | p < m < k :: !IsWS(s[m])
          invariant forall q' | 0 <= q' < k :: !EmailAt(s, p, q')
        {
          if s[k] == '.' && p + 1 < k && k + 1 < |s| && !IsWS(s[k + 1]) {
            assert EmailAt(s, p, k);
            return true;
          }
          k := k + 1;
        }
        forall q' | k <= q' < |s|
          ensures !EmailAt(s, p, q')
        {
          assert IsWS(s[k]);
        }
      }
      p := p + 1;
    }
    return false;
  }
}

=== FILE: list_sync.dfy ===
/** How the contact list's local state relates to the server's table: the
    request the client sends for a filter, and whether the optimistic patch
    after a status update shows what a refetched fetch would. */
module ListSync {
  import opened Wrappers
  import opened ContactModel
  import ApiViews
  import ContactList

  /** The query the client sends for a filter value: no `status` parameter
      at all for "". */
  function StatusParam(filter: string): (p: Option<string>)
    ensures p.GetOr("") == filter
    ensures p.Some? ==> p.value != ""
  {
    if filter == "" then None else Some(filter)
  }

  /** A successful fetch of the current filter against the server's table. */
  function Refetch(s: ContactList.ListState, store: seq<Contact>): (s': ContactList.ListState)
    ensures s'.contacts == FilterByStatus(store, s.currentStatus)
    ensures s'.error == None && !s'.loading
  {
    ContactList.FetchContacts(s, Some(ApiViews.GetContacts(store, StatusParam(s.currentStatus))))
  }

  /** The fetch on mount, with no filter yet, shows the whole table and
      ends the initial loading state. */
  lemma MountShowsWholeTable(store: seq<Contact>)
    ensures Refetch(ContactList.InitialListState, store).contacts == store
    ensures !Refetch(ContactList.InitialListState, store).loading
    ensures Refetch(ContactList.InitialListState, store).error == None
  {
  }

  /** With no filter, the optimistic patch shows exactly what a refetched fetch
      after the server's update would show. */
  lemma UnfilteredPatchMatchesRefetch(s: ContactList.ListState, store: seq<Contact>, id: int, status: string)
    requires UniqueIds(store)
    requires s.currentStatus == ""
    requires ApiViews.UpdateStatus(store, id, Some(status)).outcome.Updated?
    ensures
      var shown := Refetch(s, store);
      var patched := ContactList.HandleStatusUpdate(shown, id, status, true);
      patched.contacts == Refetch(patched, ApiViews.UpdateStatus(store, id, Some(status)).store).contacts
  {
    ApiViews.ServerUpdateMatchesClientPatch(store, id, Some(status));
  }

  /** Under a filter, a record moved to another status stays on screen with
      its new status until the next fetch, which would drop it: the local
      list and a refetched fetch differ. */
  lemma FilteredPatchIsStale(s: ContactList.ListState, store: seq<Contact>, id: int, status: string, i: int)
    requires UniqueIds(store)
    requires s.currentStatus != "" && status != s.currentStatus
    requires 0 <= i < |store| && store[i].id == id && store[i].serving_status == s.currentStatus
    requires ApiViews.UpdateStatus(store, id, Some(status)).outcome.Updated?
    ensures
      var shown := Refetch(s, store);
      var patched := ContactList.HandleStatusUpdate(shown, id, status, true);
      patched.contacts != Refetch(patched, ApiViews.UpdateStatus(store, id, Some(status)).store).contacts
  {
    var shown := Refetch(s, store);
    var patched := ContactList.HandleStatusUpdate(shown, id, status, true);
    var refetched := Refetch(patched, ApiViews.UpdateStatus(store, id, Some(status)).store).contacts;
    var k :| 0 <= k < |shown.contacts| && shown.contacts[k] == store[i];
    assert patched.contacts[k].serving_status == status;
  }
}

=== FILE: subsequence.dfy ===
/** Order-preserving selection: the shape of every list filter in the
    system (`queryset.filter`, `Array.prototype.filter`). */
module Subsequence {

  /** `idx` is a strictly increasing list of positions of `s`, and `r` holds
      the elements of `s` at those positions, in that order. */
  ghost predicate PicksInOrder<T>(s: seq<T>, r: seq<T>, idx: seq<nat>) {
    && |idx| == |r|
    && (forall k | 0 <= k < |idx| :: idx[k] < |s| && r[k] == s[idx[k]])
    && (forall k, l | 0 <= k < l < |idx| :: idx[k] < idx[l])
  }

  /** Picks from the tail of a list, shifted to positions of the whole list. */
  function Shift(idx: seq<nat>): (r: seq<nat>)
    ensures |r| == |idx|
    ensures forall k | 0 <= k < |idx| :: r[k] == idx[k] + 1
  {
    seq(|idx|, k requires 0 <= k < |idx| => idx[k] + 1)
  }

  /** Dropping the head: picks from `s[1..]`, shifted, are picks from `s`. */
  lemma PicksFromTail<T>(s: seq<T>, r: seq<T>, idx: seq<nat>)
    requires |s| > 0 && PicksInOrder(s[1..], r, idx)
    ensures PicksInOrder(s, r, Shift(idx))
    ensures forall i | 0 <= i < |s| :: i in Shift(idx) <==> i > 0 && i - 1 in idx
  {
    var sh := Shift(idx);
    forall k | 0 <= k < |sh|
      ensures sh[k] < |s| && r[k] == s[sh[k]]
    {
      assert s[1..][idx[k]] == s[idx[k] + 1];
    }
    forall i | 0 <= i < |s|
      ensures i in sh <==> i > 0 && i - 1 in idx
    {
      if i in sh {
        var k :| 0 <= k < |sh| && sh[k] == i;
        assert idx[k] == i - 1;
      }
      if i > 0 && i - 1 in idx {
        var k :| 0 <= k < |idx| && idx[k] == i - 1;
        assert sh[k] == i;
      }
    }
  }

  /** Keeping the head as well: `[s[0]] + r` is picked by `[0] + Shift(idx)`. */
  lemma PicksWithHead<T>(s: seq<T>, r: seq<T>, idx: seq<nat>)
    requires |s| > 0 && PicksInOrder(s[1..], r, idx)
    ensures PicksInOrder(s, [s[0]] + r, [0] + Shift(idx))
    ensures forall i | 0 <= i < |s| :: i in [0] + Shift(idx) <==> i == 0 || i - 1 in idx
  {
    PicksFromTail(s, r, idx);
    var sh := Shift(idx);
    var all := [0] + sh;
    var r' := [s[0]] + r;
    forall k | 0 <= k < |all|
      ensures all[k] < |s| && r'[k] == s[all[k]]
    {
      if k > 0 {
        assert all[k] == sh[k - 1] && r'[k] == r[k - 1];
      }
    }
    forall k, l | 0 <= k < l < |all|
      ensures all[k] < all[l]
    {
      assert all[l] == sh[l - 1];
      if k > 0 {
        assert all[k] == sh[k - 1];
      }
    }
    forall i | 0 <= i < |s|
      ensures i in all <==> i == 0 || i - 1 in idx
    {
      assert i in all <==> i == 0 || i in sh;
    }
  }

  /** Every position, in order, picks the whole list. */
  function AllPositions(n: nat): (idx: seq<nat>)
    ensures |idx| == n
    ensures forall k | 0 <= k < n :: idx[k] == k
  {
    seq(n, k requires 0 <= k < n => k)
  }

  lemma PicksAll<T>(s: seq<T>)
    ensures PicksInOrder(s, s, AllPositions(|s|))
    ensures forall i | 0 <= i < |s| :: i in AllPositions(|s|)
  {
    var idx := AllPositions(|s|);
    forall i | 0 <= i < |s|
      ensures i in idx
    {
      assert idx[i] == i;
    }
  }
}

=== FILE: text.dfy ===
/** Whitespace as the browser and the server see it. On the browser side
    `String.prototype.trim` strips exactly the characters that the
    regular-expression class `\s` matches, so one predicate serves both
    `trim()` and `\S` (its complement). On the server side Python's
    `str.strip()` removes the `str.isspace()` characters, a different set;
    the two disagree on a few characters. */
module Text {

  /** ECMAScript WhiteSpace and LineTerminator code units: TAB, LF, VT, FF, CR,
      SPACE, NBSP, OGHAM SPACE MARK, U+2000..U+200A, LINE and PARAGRAPH
      SEPARATOR, NARROW NBSP, MEDIUM MATHEMATICAL SPACE, IDEOGRAPHIC SPACE and
      the byte-order mark. */
  predicate IsWS(c: char) {
    || c == '\t' || c == '\n' || c == '\U{000B}' || c == '\U{000C}' || c == '\r'
    || c == ' ' || c == '\U{00A0}' || c == '\U{1680}'
    || ('\U{2000}' <= c <= '\U{200A}')
    || c == '\U{2028}' || c == '\U{2029}' || c == '\U{202F}' || c == '\U{205F}'
    || c == '\U{3000}' || c == '\U{FEFF}'
  }

  /** Every character of `s` is whitespace (vacuously true of ""). */
  predicate AllWS(s: string) {
    forall i | 0 <= i < |s| :: IsWS(s[i])
  }

  /** Python's `str.isspace()` characters, which `str.strip()` removes: TAB,
      LF, VT, FF, CR, the four information separators U+001C..U+001F, SPACE,
      NEXT LINE, NBSP, OGHAM SPACE MARK, U+2000..U+200A, LINE and PARAGRAPH
      SEPARATOR, NARROW NBSP, MEDIUM MATHEMATICAL SPACE and IDEOGRAPHIC
      SPACE. Unlike ECMAScript it has the separators and NEXT LINE and lacks
      the byte-order mark. */
  predicate IsPySpace(c: char) {
    || ('\t' <= c <= '\r') || ('\U{001C}' <= c <= ' ')
    || c == '\U{0085}' || c == '\U{00A0}' || c == '\U{1680}'
    || ('\U{2000}' <= c <= '\U{200A}')
    || c == '\U{2028}' || c == '\U{2029}' || c == '\U{202F}' || c == '\U{205F}'
    || c == '\U{3000}'
  }

  /** The two whitespace sets the system trims with: the browser's and the
      server's. */
  datatype Whitespace = Ecma | Python

  predicate IsSpace(w: Whitespace, c: char) {
    match w
    case Ecma => IsWS(c)
    case Python => IsPySpace(c)
  }

  /** `s` with its leading whitespace removed: a suffix of `s` that starts
      with a non-whitespace character, or is empty, and nothing but
      whitespace was cut off. */
  function TrimStart(s: string, w: Whitespace): (r: string)
    ensures |r| <= |s| && r == s[|s| - |r|..]
    ensures forall i | 0 <= i < |s| - |r| :: IsSpace(w, s[i])
    ensures |r| > 0 ==> !IsSpace(w, r[0])
  {
    if |s| > 0 && IsSpace(w, s[0]) then
      var r := TrimStart(s[1..], w);
      assert forall i | 1 <= i < |s| :: s[i] == s[1..][i - 1];
      r
    else s
  }

  /** `s` with its trailing whitespace removed: a prefix of `s` that ends
      with a non-whitespace character, or is empty, and nothing but
      whitespace was cut off. */
  function TrimEnd(s: string, w: Whitespace): (r: string)
    ensures |r| <= |s| && r == s[..|r|]
    ensures forall i | |r| <= i < |s| :: IsSpace(w, s[i])
    ensures |r| > 0 ==> !IsSpace(w, r[|r| - 1])
  {
    if |s| > 0 && IsSpace(w, s[|s| - 1]) then
      var r := TrimEnd(s[..|s| - 1], w);
      assert forall i | 0 <= i < |s| - 1 :: s[i] == s[..|s| - 1][i];
      r
    else s
  }

  /** JavaScript `s.trim()`. */
  function Trim(s: string): (r: string)
    ensures |r| <= |s|
    ensures |r| > 0 ==> !IsWS(r[0]) && !IsWS(r[|r| - 1])
  {
    TrimEnd(TrimStart(s, Ecma), Ecma)
  }

  /** `r` is the slice of `s` starting at `i`, and everything of `s` outside
      that slice is whitespace of the set `w`. */
  predicate Margins(w: Whitespace, s: string, r: string, i: int) {
    && 0 <= i <= |s| - |r|
    && r == s[i..i + |r|]
    && (forall k | 0 <= k < i :: IsSpace(w, s[k]))
    && (forall k | i + |r| <= k < |s| :: IsSpace(w, s[k]))
  }

  /** Python `s.strip()`, which both Django form fields and REST serializer
      fields apply to submitted text: the middle of `s`, with only Python
      whitespace cut from either end, and no whitespace left at either end. */
  function Strip(s: string): (r: string)
    ensures |r| <= |s|
    ensures exists i :: Margins(Python, s, r, i)
    ensures |r| > 0 ==> !IsPySpace(r[0]) && !IsPySpace(r[|r| - 1])
    ensures forall i | 0 <= i < |s| && !IsPySpace(s[i]) :: |r| > 0
  {
    var t := TrimStart(s, Python);
    var r := TrimEnd(t, Python);
    SuffixPrefixMargins(Python, s, t, r);
    r
  }

  /** A prefix `r` of a suffix `t` of `s`, where each cut was whitespace only. */
  lemma SuffixPrefixMargins(w: Whitespace, s: string, t: string, r: string)
    requires |t| <= |s| && t == s[|s| - |t|..]
    requires forall k | 0 <= k < |s| - |t| :: IsSpace(w, s[k])
    requires |r| <= |t| && r == t[..|r|]
    requires forall k | |r| <= k < |t| :: IsSpace(w, t[k])
    ensures Margins(w, s, r, |s| - |t|)
  {
    var i := |s| - |t|;
    assert r == s[i..i + |r|];
    forall k | i + |r| <= k < |s|
      ensures IsSpace(w, s[k])
    {
      assert s[k] == t[k - i];
    }
  }

  /** The contract of `Strip` is a definition: any slice with whitespace-only
      margins and no whitespace at its own ends is the stripped string. */
  lemma {:induction false} StripIsUnique(s: string, r: string, i: int)
    requires Margins(Python, s, r, i)
    requires |r| > 0 ==> !IsPySpace(r[0]) && !IsPySpace(r[|r| - 1])
    ensures r == Strip(s)
  {
    var t := Strip(s);
    var j :| Margins(Python, s, t, j);
    if |r| == 0 {
      if |t| > 0 {
        assert false;
      }
    } else {
      assert s[i] == r[0] && s[i + |r| - 1] == r[|r| - 1];
      assert |t| > 0;
      assert s[j] == t[0] && s[j + |t| - 1] == t[|t| - 1];
      assert i == j;
      assert i + |r| == j + |t|;
    }
  }

  /** `!s.trim()` in JavaScript: the trimmed string is the empty (falsy) string. */
  predicate IsBlank(s: string) {
    |Trim(s)| == 0
  }

  /** The string trims to "" exactly when it consists of whitespace only;
      this is how the form's `!x.trim()` tests are read below. */
  lemma BlankIffAllWS(s: string)
    ensures IsBlank(s) <==> AllWS(s)
  {
    var t := TrimStart(s, Ecma);
    if IsBlank(s) {
      if |t| > 0 {
        assert false;
      }
    }
  }

  /** The browser and the server disagree on what is blank: an information
      separator is text to `trim()` but whitespace to `strip()`, and the
      byte-order mark the other way round. */
  lemma TrimAndStripDisagree()
    ensures !IsBlank("\U{001C}") && Strip("\U{001C}") == ""
    ensures IsBlank("\U{FEFF}") && Strip("\U{FEFF}") == "\U{FEFF}"
  {
    SeparatorIsOnlyPythonSpace();
    ByteOrderMarkIsOnlyEcmaSpace();
  }

  lemma SeparatorIsOnlyPythonSpace()
    ensures !IsBlank("\U{001C}") && Strip("\U{001C}") == ""
  {
    SeparatorIsText();
    SeparatorStripsAway();
  }

  lemma SeparatorIsText()
    ensures !IsBlank("\U{001C}")
  {
    var s := "\U{001C}";
    assert !IsSpace(Ecma, s[0]);
    Untrimmed(s, Ecma);
  }

  lemma SeparatorStripsAway()
    ensures Strip("\U{001C}") == ""
  {
    var s := "\U{001C}";
    assert IsPySpace(s[0]);
    assert |TrimStart(s, Python)| == 0;
  }

  lemma ByteOrderMarkIsOnlyEcmaSpace()
    ensures IsBlank("\U{FEFF}") && Strip("\U{FEFF}") == "\U{FEFF}"
  {
    ByteOrderMarkIsBlank();
    ByteOrderMarkIsKept();
  }

  lemma ByteOrderMarkIsBlank()
    ensures IsBlank("\U{FEFF}")
  {
    var s := "\U{FEFF}";
    assert IsWS(s[0]);
    assert |TrimStart(s, Ecma)| == 0;
  }

  lemma ByteOrderMarkIsKept()
    ensures Strip("\U{FEFF}") == "\U{FEFF}"
  {
    var s := "\U{FEFF}";
    assert !IsSpace(Python, s[0]);
    Untrimmed(s, Python);
  }

  /** A one-character string that is not whitespace trims to itself. */
  lemma Untrimmed(s: string, w: Whitespace)
    requires |s| == 1 && !IsSpace(w, s[0])
    ensures TrimEnd(TrimStart(s, w), w) == s
  {
    assert TrimStart(s, w) == s;
  }
}

=== FILE: wrappers.dfy ===
/** The optional value used for JavaScript `null`/`undefined`, Python `None`
    and absent query or body parameters throughout the model. */
module Wrappers {

  datatype Option<+T> = None | Some(value: T) {

    /** The wrapped value, or `default` when there is none. */
    function GetOr(default: T): T {
      match this
      case Some(v) => v
      case None => default
    }
  }
}
